=== FILE: README.md ===
# Blog generator: a Dafny model of its string and record logic

The blog generator turns a topic, or a CSV file of topics, into a Markdown post
with YAML front matter and an HTML page. Around its library calls sits a small
body of pure logic, and that logic is what this project models and proves
properties of:

- **`utils.py`**
  - Counting words (maximal runs of word characters) and the reading time derived from them.
  - The integer part of keyword density.
  - Slug truncation.
  - The rule that marks external links after Markdown conversion.
  - The JSON-LD record.
  - The field selection, with fallbacks, that feeds the page template.
- **`generator.py`**
  - Splitting the structure template at `"Part 2:"`.
  - The `--use_ai` flag.
  - The placeholder body, the title and the metadata record `main` assembles.
  - The Markdown file content.
  - The `Module N:` heading clean-up.
  - The three metadata defaults set before the page is rendered.
  - One whole run of `main`.
- **`bulk_generator.py`**
  - Resolving each CSV row against the configured defaults, including `int()` on the year.
  - The keyword list.
  - The draft body.
  - The per-row metadata and file path.
  - The batch loop, which stops at the first failing row.
  - The post summaries, and how link suggestions are matched to posts by index.
  - pathlib's `with_suffix` for the page path.

Layout, one module per file:

| file | module | contents |
|---|---|---|
| `wrappers.dfy` | `Wrappers` | `Option` (Python's `None` and absent dictionary keys) and `Result` (the exceptions that end a run) |
| `text.dfy` | `Text` | Python string built-ins the code relies on: `isspace`, ASCII `lower`, `strip`, `split` on a character, `join`, `find`, non-overlapping literal `findall`, `int()` and `str()` of an integer |
| `utils.dfy` | `Utils` | `utils.py` |
| `generator.dfy` | `Generator` | `generator.py` |
| `bulk.dfy` | `Bulk` | `bulk_generator.py` |

The libraries the code calls are fields of a `Libraries` record of total
functions that the model never looks inside:
- `slugify`;
- `markdown`;
- BeautifulSoup's parse and serialise;
- `yaml.safe_dump`;
- the link suggester.

The clock's date, the configuration, the template text, the CSV rows and each
completion-service answer are parameters. Each answer is a `Result`, so a failed
call is one of the inputs.

## Model

| member | source | states |
|---|---|---|
| `Utils.Words` | utils.py:19 | every word `\w+` finds is a non-empty run of word characters |
| `Utils.WordsCountRunStarts` | utils.py:19 | the number of words equals the number of places where a run of word characters begins, counted by an independent two-state scanner |
| `Utils.WordsCoverWordChars` | utils.py:19 | read back to back, the words are exactly the text's word characters in order: none is lost and none is counted twice |
| `Utils.CountWords` | utils.py:19 | a single left-to-right pass that keeps no list of words counts as many words as `findall` returns |
| `Utils.LowerKeepsWordCount` | utils.py:25-26 | lower-casing the text does not change its word count, so the density denominator can be taken from either |
| `Utils.EstReadingTime` | utils.py:18-20 | the reading time is at least one minute and is the least whole number of minutes in which the words fit at 200 a minute, i.e. `max(1, ceil(words / 200))` |
| `Utils.ReadingTimeMonotone` | utils.py:19-20 | more words never give less reading time, and up to 200 words always give one minute |
| `Utils.KeywordDensity` | utils.py:22-28 | an empty keyword gives no hits; otherwise the hits are as many as the positions of any left-to-right scan of the lower-cased text that takes the first occurrence of the lower-cased keyword at or after the end of the previous one, which is how `findall` matches; the denominator is the word count, or 1 when there are no words, so it is never zero; there are hits exactly when the keyword occurs; the hits fit side by side in the text |
| `Utils.DensityIgnoresCase` | utils.py:25-27 | the letter case of neither the text nor the keyword changes the density |
| `Utils.DensityCountsSubstrings` | utils.py:27 | hits are substring matches and not whole words: "Plan" is found once in "planning", a text of one word |
| `Utils.SeoSlug` | utils.py:15-16 | the slug is a prefix of the `slugify` result, of exactly `min(len(slugify(title)), 120)` characters: the whole result when it is short enough, and its first 120 characters otherwise |
| `Utils.MarkExternalLinks` | utils.py:42-46 | an element gains `target="_blank"` and `rel="noopener noreferrer"` exactly when it is an anchor whose `href` starts with "http", and keeps its other attributes; every other element, relative links included, is left unchanged |
| `Utils.MarkExternalLinksIdempotent` | utils.py:42-46 | marking links a second time changes nothing |
| `Utils.MdToHtml` | utils.py:39-47 | no contract of its own: the Markdown conversion, the parse and the serialisation are library calls, and the link rule in between is `Utils.MarkExternalLinks`, whose contract and `Utils.MarkExternalLinksIdempotent` carry the meaning |
| `Utils.FrontMatter` | utils.py:30-31 | the front matter opens and closes with a `---` line; the YAML text between is the library's dump of the metadata, which includes the order in which the program inserted the keys |
| `Utils.BuildJsonLd` | utils.py:49-60 | the publisher is always WIF Marketing at its site; the page entity is the canonical URL when that key is present, and the site's address only when it is absent; the author's name and the publication date are the metadata's |
| `Utils.RenderHtml` | utils.py:63-81 | keywords reach the page joined with ", " in order; the Open Graph title and description fall back to the title and the meta description only when their key is absent, not when it is empty; the body is converted with the external-link rule; links, reading time and site name pass through, as do the title, the author's name, the Open Graph image, the date, and the JSON-LD author and publication date |
| `Text.Lower` | utils.py:25 | lower-casing keeps the length and maps each character on its own |
| `Text.LowerIdempotent` | utils.py:25-27 | lower-casing twice is lower-casing once |
| `Text.Find` | generator.py:16 | the search result is an occurrence with no earlier one, and there is no result only when nothing occurs |
| `Text.FindNoneIffAbsent` | generator.py:16-18 | the search finds nothing exactly when the text does not contain the delimiter |
| `Text.MatchesAreGreedy` | utils.py:27 | the match positions found by scanning are a greedy scan (`Text.GreedyScan`): each is an occurrence, none lies between the end of one match and the next, and none after the last; and they are the only list of positions with that property |
| `Text.GreedyScanUnique` | utils.py:27 | two greedy scans of the same text for the same literal from the same start are the same list |
| `Text.GreedyScanFits` | utils.py:27 | the matches of a greedy scan do not overlap, so they fit side by side in the rest of the text |
| `Text.CountOccurrences` | utils.py:27 | the count is the length of every greedy scan for the keyword, and that many copies of the keyword fit in the text |
| `Text.CountPositiveIffContains` | utils.py:27 | the hit count is positive exactly when the keyword occurs somewhere |
| `Text.Strip` | generator.py:17 | `strip` returns the middle slice left after all leading and trailing whitespace is removed, and that slice starts and ends with non-whitespace |
| `Text.StripStripped` | bulk_generator.py:31 | stripping an already stripped string changes nothing |
| `Text.StripLeftPadded` | bulk_generator.py:31 | leading whitespace in front of a stripped string is all that `strip` removes |
| `Text.Take` | utils.py:16 | `s[:n]` is a prefix of `s` of length `min(len(s), n)` |
| `Text.Split` | bulk_generator.py:31 | `split(",")` gives at least one piece, no piece contains a comma, and joining the pieces with "," gives the text back |
| `Text.SplitJoinPadded` | bulk_generator.py:31 | splitting a list joined with ", " on "," gives the first element and then every later element with one space in front |
| `Text.Join` | utils.py:70 | no contract of its own: `join` is pinned down as the inverse of `split` by `Text.Split` (joining the pieces with the separator gives the text back) and `Text.SplitJoinPadded` |
| `Text.NatToDecimal` | generator.py:97 | `str()` of a natural number is a string of digits without a leading zero that denotes that number |
| `Text.IntToDecimal` | generator.py:97 | `str()` of an integer is non-empty: for `n >= 0` it is digits denoting `n`, and otherwise a minus sign followed by digits denoting `-n` |
| `Text.IntTrim` | bulk_generator.py:14 | what `int()` reads is the text without the whitespace it skips around a number: the result has no such character at either end, is a slice of the text that starts after its leading run of them, and only such characters follow it |
| `Text.ParseInt` | bulk_generator.py:14 | `int()` rejects text that is empty or holds only the whitespace it skips; an accepted text, with that whitespace removed, is non-empty, ends with a digit, and holds only digits and underscores after an optional leading sign. What it reads is stated by `Text.ParseIntOfDecimal` and `Text.ParseIntOfDigits` |
| `Text.ParseIntKeepsSeparators` | bulk_generator.py:14 | the separators U+001C to U+001F count as whitespace for `str.strip()` but not for `int()`: "\x1c2025" strips to "2025", yet `int()` rejects it |
| `Text.ParseIntOfDecimal` | bulk_generator.py:14 | the model's `int()` reads back every text its `str()` writes: `int(str(n)) == n` for every integer `n` (CPython's limit on the number of digits is not modelled; see below) |
| `Text.ParseIntOfNatural` | bulk_generator.py:14 | `int()` reads the decimal text of a natural number back as that number |
| `Text.ParseIntOfNegative` | bulk_generator.py:14 | `int()` reads a minus sign followed by the decimal text of a positive number back as its negation |
| `Text.ParseIntOfDigits` | bulk_generator.py:14 | the whitespace `int()` skips is ignored: text that is plain digits once that whitespace is removed from both ends reads as the number they denote. That whitespace is `str.isspace()` without U+001C to U+001F |
| `Generator.LoadBlogParts` | generator.py:13-19 | `part2` is empty exactly when the text has no "Part 2:"; `part1` never contains it and is the whole stripped text when there is no delimiter; a non-empty `part2` is the delimiter followed by text without another one |
| `Generator.LoadBlogPartsOfPieces` | generator.py:16-18 | with one delimiter the parts are the stripped text before it and the delimiter followed by the stripped text after it; everything after a second delimiter is dropped |
| `Generator.FindAfterFreePrefix` | generator.py:16 | the delimiter cannot overlap itself, so after a delimiter-free prefix the split happens exactly at the appended delimiter |
| `Generator.HeadingMatch` | generator.py:60 | a match of `#+\s*Module\s+\d+:\s*` covers at least ten characters and stays within the text |
| `Generator.CleanHeadings` | generator.py:58-60 | the contract is only a bound, the result is never longer than the input; the rewrite itself is stated by `Generator.CleanHeadingsUnchangedIff`, `Generator.LayoutRewritten`, `Generator.ModuleHeadingRewritten`, `Generator.BlankLinesJoinHeading`, and for headings on later lines and several headings by `Generator.CleanHeadingsLocal`, `Generator.PlainLinesKept`, `Generator.HeadingLineThenRest` and `Generator.TwoHeadingLines` |
| `Generator.CleanHeadingsUnchangedIff` | generator.py:58-60 | the text comes back unchanged exactly when no line starts with a "Module N:" heading |
| `Generator.CleanFromShift` | generator.py:60 | with `^` under MULTILINE, scanning from inside a text that starts a line of a longer text finds the same matches and gives the same output as scanning it on its own |
| `Generator.CleanHeadingsLocal` | generator.py:58-60 | the rewrite is local to lines: complete lines in front of a text, on which no match starts, are kept as they are, and the text after them is cleaned exactly as if it stood alone |
| `Generator.PlainLinesKept` | generator.py:58-60 | complete lines without a '#' in front of a text are kept as they are, and a heading on a later line is rewritten as if it stood first |
| `Generator.HeadingLineThenRest` | generator.py:58-60 | a heading line ending in a line break becomes "## " and its title, the line break is kept, and the text after it is cleaned on its own, so each heading of a text is rewritten in turn |
| `Generator.TwoHeadingLines` | generator.py:58-60 | two "Module N:" heading lines in a row are both rewritten, each to "## " and its title |
| `Generator.ModuleAtIffLower` | generator.py:60 | with the `(?i)` flag, the six characters at a position match `Module` exactly when they lower-case to "module" |
| `Generator.LayoutMatch` | generator.py:60 | on hashes, a space, "Module" in any letter case, a space, digits, a colon and a run of whitespace followed by a non-space or the end, the pattern ends exactly after the whole whitespace run |
| `Generator.LayoutRewritten` | generator.py:59-60 | such a heading, followed by a rest holding no line break, is replaced by "## " and the rest, and nothing else in the text changes |
| `Generator.ModuleHeadingRewritten` | generator.py:59-60 | a heading line made of hashes, a space, "Module" in any letter case, a space, digits, ": " and a title becomes "## " and the title |
| `Generator.BlankLinesJoinHeading` | generator.py:59-60 | `\s*` after the colon also swallows line breaks: "## Module 1:" followed by a blank line and "Intro" becomes the one line "## Intro" |
| `Generator.UseAi` | generator.py:83 | AI is on exactly when the lower-cased flag is one of "true", "1", "yes", "y", which needs one to four characters |
| `Generator.UseAiCases` | generator.py:77-83 | letter case never matters, the default "true" turns AI on, and "false", "no", "0", "on" and "" turn it off |
| `Generator.PlaceholderBody` | generator.py:94 | the placeholder starts with the to-do line, names the topic just after it, and contains both template parts |
| `Generator.GuideTitle` | generator.py:97 | the title is the topic, " — Complete Guide for " and the year, and its tail reads back as that year |
| `Generator.GeneratorMeta` | generator.py:96-117 | the metadata title is the guide title; keywords is exactly the primary keyword; the meta description is the first 155 characters of the stripped body, or all of it; the slug is the truncated slug of the title; the reading time is the body's; the Open Graph title, description and image and the canonical URL are stored as ""; the keys are inserted with the canonical URL last |
| `Generator.RenderBlog` | generator.py:63-65 | the Markdown file is the front matter followed by a blank line, the stripped body and a final newline, and has exactly the length of those pieces |
| `Generator.SetDefault` | generator.py:130-132 | `setdefault` keeps any stored value, including "", and stores the default only under an absent key |
| `Generator.HtmlMetaAsWritten` | generator.py:130-132 | the three `setdefault` calls keep any stored Open Graph title, description and canonical URL, even "", and fill in the title, the meta description and the post's URL only under an absent key; no other field changes |
| `Generator.HtmlDefaultsNeverApply` | generator.py:108-133 | as written, the three defaults never apply, so the page of every generated post has an empty Open Graph title and description and an empty canonical URL, also in its JSON-LD |
| `Generator.FillDefault` | generator.py:130-132 | the corrected default: an absent or empty value takes the default, and any other value is kept |
| `Generator.HtmlMeta` | generator.py:130-132 | the corrected defaults change the Open Graph title and description and the canonical URL only, each one only when it is empty |
| `Generator.GeneratedPageHasDefaults` | generator.py:130-133 | with the corrected defaults, every generated page carries its title, its description and its own canonical URL |
| `Generator.GenerateSingle` | generator.py:68-135 | a run fails exactly when the configuration lacks the template path, or when AI is on and the call fails. Otherwise the body is the answer, or, with AI off, exactly the placeholder built from the topic and the two template parts. The Markdown file is the file `render_blog` makes of the uncleaned body, while the page shows the cleaned body. The page carries the post's title and keyword, but its Open Graph title and description and its canonical URL, in the JSON-LD too, are empty, because the defaults do not apply. The page has no related links. Both files are named after the slug in the output directory |
| `Generator.SinglePageLacksDefaults` | generator.py:108-133 | the page a run renders differs from the page the defaults were meant to give exactly in the Open Graph title, description and canonical URL: the intended ones are the title, the meta description and the post's URL, and the first and last differ from the empty values on the page |
| `Generator.OutputDir` | generator.py:122 | the output directory is the configured `output_dir`, or "output" when that key is absent |
| `Bulk.Field` | bulk_generator.py:30 | a cell is its text when the column exists, and "" otherwise |
| `Bulk.Resolve` | bulk_generator.py:9-13 | a non-empty cell wins; otherwise the configured default is used, even when it is empty; otherwise the built-in fallback |
| `Bulk.Topic` | bulk_generator.py:8 | the topic is the topic cell when it is non-empty, else the title cell; it is empty exactly when both cells are empty or missing |
| `Bulk.ResolveRow` | bulk_generator.py:8-14 | a row fails exactly when `int()` rejects its year text (the cell, else the default, else 2025), whether or not AI is on. Otherwise the topic is the cell topic, else the title, else "". Each of the other fields resolves with its own default key and fallback; the company uses "company_name" |
| `Bulk.RowYearOfDecimal` | bulk_generator.py:14 | a year cell holding an integer's decimal text gives that integer |
| `Bulk.RowYearDefault` | bulk_generator.py:14 | an empty year cell with no configured default gives 2025 |
| `Bulk.NonBlankStripped` | bulk_generator.py:31 | every kept keyword is non-empty and stripped |
| `Bulk.NonBlankStrippedLength` | bulk_generator.py:31 | there is one keyword per piece that is not blank once stripped |
| `Bulk.NonBlankStrippedAppend` | bulk_generator.py:31 | the filter works piece by piece, so the keywords keep the cell's order |
| `Bulk.KeywordTail` | bulk_generator.py:31 | the keywords after the primary one are non-empty, stripped and comma-free |
| `Bulk.KeywordTailRoundTrip` | bulk_generator.py:31 | a clean keyword list joined with ", " (the page's keyword line) parses back to the same list |
| `Bulk.BulkKeywords` | bulk_generator.py:31 | the list starts with the primary keyword, even an empty one, followed by the clean keywords of the cell |
| `Bulk.BulkKeywordsLength` | bulk_generator.py:31 | the list has one more entry than the cell has non-blank comma pieces |
| `Bulk.PageKeywordsOfCleanCell` | bulk_generator.py:31 | a cell holding a clean list joined with ", " gives the primary keyword followed by that list |
| `Bulk.FirstLine` | bulk_generator.py:20 | the first line is a prefix of the text without a line break |
| `Bulk.DraftHeadingSwallowsNote` | bulk_generator.py:20 | as written, the draft heading line runs on into the note: it starts with "## Draft: <topic>\n\n(Please fill this)" with literal backslashes |
| `Bulk.DraftBodyAsWritten` | bulk_generator.py:20 | the draft as written starts with "## Draft: ", the topic, a literal backslash-n pair twice and the fill-in note, and ends with two literal backslash-n pairs and the template |
| `Bulk.DraftBody` | bulk_generator.py:20 | the corrected draft starts with the heading line and ends with a blank line and the template |
| `Bulk.DraftHeadingIsTopic` | bulk_generator.py:20 | with real line breaks the heading line is exactly "## Draft: " and the topic |
| `Bulk.BulkMeta` | bulk_generator.py:21-39 | the title is the row title, else the topic with " — A Complete Guide". The slug comes from the topic, not the title. The keywords follow the keyword rule, and the reading time is the body's. The primary keyword is the resolved one. The canonical URL, meta description and Open Graph title, description and image are stored from the row as given, even when empty. The keys are inserted with the canonical URL right after the reading time |
| `Bulk.KeyOrdersDiffer` | bulk_generator.py:21-36 | a batch post and a post of the single generator store the same keys in different orders: the batch's is the generator's (generator.py:96-111) with the canonical URL moved from the end to just after the reading time, so their YAML front matter lists the keys differently |
| `Bulk.KeyOrderMoved` | bulk_generator.py:21-36 | the two insertion orders, as constants: fourteen keys, the same ones, differing only in where the canonical URL sits |
| `Bulk.ModelKeys` | bulk_generator.py:18 | the model settings are usable exactly when name, API base and key variable are all configured |
| `Bulk.GenerateOne` | bulk_generator.py:7-46 | a row fails exactly on a bad year, or with AI on on a missing model setting or a failed call. The body is the answer, or the draft for the topic as the code writes it, literal backslashes included. The metadata is the batch metadata of the resolved row and that body. The file is `output/<slug>.md` with the slug taken from the topic. Its content is exactly the front matter, a blank line and the unstripped body |
| `Bulk.WriteRow` | bulk_generator.py:43-46 | the Markdown content starts with the front matter and ends with a line break followed by the body |
| `Bulk.MdPath` | bulk_generator.py:41-43 | the Markdown path is "output/", the slug and ".md", and the slug can be read back from it |
| `Bulk.SameTopicSameFile` | bulk_generator.py:28-43 | two rows on the same topic write the same file whatever their titles, so the later one overwrites the earlier |
| `Bulk.UntilFailure` | bulk_generator.py:61-63 | the batch keeps every success before the first failure and reports that failure |
| `Bulk.GenerateRows` | bulk_generator.py:60-63 | post `i` of the batch is what the generator makes of row `i`; the batch covers every row unless it stopped, and if it stopped, the row after the last post is the one that failed |
| `Bulk.BatchCompletesIffNoRowFails` | bulk_generator.py:60-63 | the batch finishes exactly when no row fails |
| `Bulk.Summaries` | bulk_generator.py:65 | the suggester gets each post's title, slug, canonical URL or "" and body, in post order |
| `Bulk.LinksFor` | bulk_generator.py:70 | post `i` receives suggestion list `i` when it exists and no links otherwise |
| `Bulk.LastIndexOf` | bulk_generator.py:72 | the last occurrence of a character has none after it, and no result means the character is absent |
| `Bulk.LastIndexOfAt` | bulk_generator.py:72 | a position holding the character with none after it is the last occurrence |
| `Bulk.WithSuffix` | bulk_generator.py:72 | the directory part of the path is kept and the result ends with the new suffix |
| `Bulk.HtmlPathOfSlug` | bulk_generator.py:72 | the page sits next to its Markdown file as `output/<slug>.html`; an empty slug gives the file name ".md", which pathlib reads as having no suffix, so the page becomes `output/.md.html` |
| `Bulk.RenderAll` | bulk_generator.py:69-73 | page `i` is rendered from post `i`'s metadata and unstripped, uncleaned body with the links at index `i`, and goes to post `i`'s path with the suffix replaced |
| `Bulk.BulkUseAi` | bulk_generator.py:62 | AI is on exactly when the lower-cased flag is one of "true", "1", "y", "yes" |
| `Bulk.BulkUseAiAgrees` | bulk_generator.py:62 | both programs read the AI flag the same way |
| `Bulk.BulkMain` | bulk_generator.py:48-74 | without a template path nothing is generated. Otherwise the files written and the failure are those of the batch loop over the rows. A failing row ends the run with the earlier files written and no page rendered. Otherwise every row has a file and a page; page `i` sits beside file `i` and is rendered from post `i`'s metadata and body with the suggestions at index `i`, computed over all posts |

## Left out

- The reading of configuration, template, CSV and HTML template files, and the writing of the Markdown, HTML and `robots.txt` files. The file contents are parameters or results. Directory creation is left out too.
- The try/except around HTML export in `generator.py`, and the messages it prints. The model renders the page whenever the Markdown file is written. A template that cannot be read is a file-system failure and is not modelled.
- `call_openai`, its HTTP request, its environment lookup and its error texts. The body comes from the answer parameter, which may be a failure.
- `build_prompt`, `call_openrouter` and `suggest_internal_links` are not defined in `generator.py` or `utils.py`. They are therefore not modelled:
  - the prompt is not modelled at all;
  - the call's answer is a parameter;
  - the suggester is an opaque function.
- The same three names mean that `bulk_generator.py`'s imports would fail as written. The model describes the program that those imports evidently intend.
- The Jinja rendering is modelled only up to the context record it receives. The `json.dumps` text of the JSON-LD record and the YAML text of the front matter are left out, because they come from library calls. The YAML dump is given the metadata together with its key insertion order (`keyOrder`), which is where the two programs' front matter differ; what `yaml.safe_dump` does with that order is not modelled.
- `datetime.date.today()` is a parameter.
- argparse's parsing, required flags and `type=int` conversion of `--year`. The parsed values are the input.
- Python's Unicode-aware `\w`, `\d` and `lower()` are modelled on ASCII letters, digits and underscore. `isspace` follows Python's definition, including the Unicode spaces; the whitespace `int()` skips is that set without the separators U+001C to U+001F, as in CPython.
- `Text.ParseInt`: `int()` also accepts non-ASCII decimal digits, such as Arabic-Indic or full-width ones; the model accepts only ASCII digits, so such a year cell fails in the model where Python reads it.
- `Text.ParseInt`: from Python 3.11 on, `int()` and `str()` raise `ValueError` on more than 4300 decimal digits. The model has no such limit, so `Bulk.ResolveRow` accepts a year of that length where bulk_generator.py:14 raises, and `Text.ParseIntOfDecimal` holds for integers of any size.
- The floating-point division and `round(..., 2)` of the keyword density. `Utils.KeywordDensity` returns the hit count and the denominator it divides.
- `Utils.EstReadingTime`: the source computes `ceil(words / 200)` in floating point. The model uses exact integer division, which agrees with it for any word count below 10^15.
- `Bulk.Field`: `csv.DictReader` fills short rows with `None`, which `row.get` returns as is. The model treats such a cell as absent. A `None` canonical URL, meta description or Open Graph value would be dumped as `null` rather than "".
- `Bulk.ResolveRow`: configured defaults are carried as text. A YAML integer year is its decimal text, which `Text.ParseIntOfDecimal` reads back as itself. A missing or null `defaults` section is not distinguished from an empty one.
- `Bulk.ModelKeys`: a missing `model` section and a missing key in it are one error.
- `Bulk.MdPath`: the path is relative to the project directory. pathlib's joining with the absolute base and its normalisation of separators are left out. `Bulk.WithSuffix` assumes the final component is not empty, which `MdPath` guarantees.
- `Generator.GenerateSingle`: the output directory is joined with "/", and pathlib's normalisation is left out.
- `dashboard.py` is user-interface code and is not part of this model. Its "Recompute Reading Time" button rounds where `utils.py` takes the ceiling.
- Neither `generate_one` nor the loop in `bulk_generator.py` catches an exception, so the first failing row ends the run: `Bulk.GenerateRows` stops there.
- With AI off, a row still fails when `int()` rejects its year text (bulk_generator.py:14).

## Findings

| source | as written | input that shows it | evidently intended | confidence | as-written member | corrected member |
|---|---|---|---|---|---|---|
| bulk_generator.py:20 | the draft body uses `\\n` inside an f-string, which produces a backslash and an `n` rather than a line break | any row with AI off, e.g. topic "SEO": the first line is `## Draft: SEO\n\n(Please fill this)\n\n…` with literal backslashes | a heading line, a blank line, the note, a blank line, then the template | high (not executed) | `Bulk.DraftHeadingSwallowsNote` (on `Bulk.DraftBodyAsWritten`), and `Bulk.GenerateOne` | `Bulk.DraftBody`, with `Bulk.DraftHeadingIsTopic` |
| generator.py:130-132 | `setdefault` on `og_title`, `og_description` and `canonical_url`, keys the metadata already holds as "" (lines 108-110) | any run, e.g. topic "ROAS": the page's Open Graph title, description and canonical URL are all empty | an empty value takes the title, the meta description and `https://yourdomain.com/<slug>.html` | high (not executed) | `Generator.HtmlDefaultsNeverApply` (on `Generator.HtmlMetaAsWritten`), and `Generator.GenerateSingle` | `Generator.HtmlMeta` with `Generator.FillDefault`, `Generator.GeneratedPageHasDefaults`, and `Generator.SinglePageLacksDefaults` |

=== FILE: bulk.dfy ===
/** `bulk_generator.py`: one post per CSV row, each row's empty cells filled from the
    configuration's defaults, every Markdown file written before any page is rendered,
    and the pages rendered with the related-post links the suggester returns. */
module Bulk {
  import opened Wrappers
  import opened Text
  import opened Utils
  import Generator

  // ---------------------------------------------------------------------------
  // Rows and defaults

  /** One CSV row as `csv.DictReader` yields it: column name to cell text. */
  type Row = map<string, string>

  /** The parts of the configuration the batch reads: `paths`, `defaults` and
      `model`. A YAML scalar among the defaults is carried as its text. */
  datatype BulkConfig = BulkConfig(
    paths: map<string, string>,
    defaults: map<string, string>,
    model: map<string, string>)

  /** `row.get(key, "")`. */
  function Field(row: Row, key: string): (v: string)
    ensures key in row ==> v == row[key]
    ensures key !in row ==> v == ""
  {
    if key in row then row[key] else ""
  }

  /** Python's `a or b` on two strings: `a` unless it is empty. */
  function OrElse(a: string, b: string): (r: string)
    ensures a != "" ==> r == a
    ensures a == "" ==> r == b
  {
    if a != "" then a else b
  }

  /** `d.get(key, fallback)`. */
  function Lookup(d: map<string, string>, key: string, fallback: string): (v: string)
    ensures key in d ==> v == d[key]
    ensures key !in d ==> v == fallback
  {
    if key in d then d[key] else fallback
  }

  /** `row.get(rowKey) or cfg.get("defaults", {}).get(defaultKey, fallback)`: a
      non-empty cell wins; otherwise the configured default, present even when empty;
      otherwise the built-in fallback. */
  function Resolve(row: Row, rowKey: string, defaults: map<string, string>,
                   defaultKey: string, fallback: string): (v: string)
    ensures Field(row, rowKey) != "" ==> v == row[rowKey]
    ensures Field(row, rowKey) == "" && defaultKey in defaults ==> v == defaults[defaultKey]
    ensures Field(row, rowKey) == "" && defaultKey !in defaults ==> v == fallback
  {
    OrElse(Field(row, rowKey), Lookup(defaults, defaultKey, fallback))
  }

  const DEFAULT_AUTHOR := "WIF Marketing"
  const DEFAULT_YEAR := "2025"

  /** `row.get("topic") or row.get("title") or ""`. */
  function Topic(row: Row): (t: string)
    ensures Field(row, "topic") != "" ==> t == row["topic"]
    ensures Field(row, "topic") == "" ==> t == Field(row, "title")
    ensures t == "" <==> Field(row, "topic") == "" && Field(row, "title") == ""
  {
    OrElse(Field(row, "topic"), Field(row, "title"))
  }

  /** The text `int()` is applied to for the year. */
  function YearText(row: Row, defaults: map<string, string>): string {
    Resolve(row, "year", defaults, "year", DEFAULT_YEAR)
  }

  /** The values `generate_one` settles before it writes anything. */
  datatype RowInputs = RowInputs(
    topic: string,
    audience: string,
    primaryKeyword: string,
    authorName: string,
    authorTitle: string,
    company: string,
    year: int)

  /** Lines 8-14 of `generate_one`. The year goes through `int()`, which raises on
      text that is not an integer whether or not the completion service is used. */
  function ResolveRow(row: Row, defaults: map<string, string>): (r: Result<RowInputs, Generator.RunError>)
    ensures r.Failure? <==> ParseInt(YearText(row, defaults)).None?
    ensures r.Failure? ==> r.error == Generator.InvalidYear(YearText(row, defaults))
    ensures r.Success? ==> Some(r.value.year) == ParseInt(YearText(row, defaults))
    ensures r.Success? ==> r.value.topic == Topic(row)
    ensures r.Success? ==> r.value.audience == Resolve(row, "audience", defaults, "audience", "")
    ensures r.Success? ==> r.value.primaryKeyword == Resolve(row, "primary_keyword", defaults, "primary_keyword", "")
    ensures r.Success? ==> r.value.authorName == Resolve(row, "author_name", defaults, "author_name", DEFAULT_AUTHOR)
    ensures r.Success? ==> r.value.authorTitle == Resolve(row, "author_title", defaults, "author_title", "")
    ensures r.Success? ==> r.value.company == Resolve(row, "company", defaults, "company_name", DEFAULT_AUTHOR)
  {
    var yearText := YearText(row, defaults);
    match ParseInt(yearText)
    case None => Failure(Generator.InvalidYear(yearText))
    case Some(year) =>
      Success(RowInputs(
        topic := Topic(row),
        audience := Resolve(row, "audience", defaults, "audience", ""),
        primaryKeyword := Resolve(row, "primary_keyword", defaults, "primary_keyword", ""),
        authorName := Resolve(row, "author_name", defaults, "author_name", DEFAULT_AUTHOR),
        authorTitle := Resolve(row, "author_title", defaults, "author_title", ""),
        company := Resolve(row, "company", defaults, "company_name", DEFAULT_AUTHOR),
        year := year))
  }

  /** The decimal text of the built-in default year. */
  lemma DefaultYearDecimal()
    ensures IntToDecimal(2025) == DEFAULT_YEAR
  {
    assert NatToDecimal(2) == "2";
    assert NatToDecimal(20) == NatToDecimal(2) + "0";
    assert NatToDecimal(202) == NatToDecimal(20) + "2";
    assert NatToDecimal(2025) == NatToDecimal(202) + "5";
  }

  /** A year cell holding the decimal text of a year yields that year. */
  lemma RowYearOfDecimal(row: Row, defaults: map<string, string>, y: int)
    requires Field(row, "year") == IntToDecimal(y)
    ensures ResolveRow(row, defaults).Success? && ResolveRow(row, defaults).value.year == y
  {
    ParseIntOfDecimal(y);
    assert YearText(row, defaults) == IntToDecimal(y);
  }

  /** An empty year cell with no configured default yields 2025. */
  lemma RowYearDefault(row: Row, defaults: map<string, string>)
    requires Field(row, "year") == "" && "year" !in defaults
    ensures ResolveRow(row, defaults).Success? && ResolveRow(row, defaults).value.year == 2025
  {
    DefaultYearDecimal();
    ParseIntOfDecimal(2025);
    assert YearText(row, defaults) == DEFAULT_YEAR;
  }

  // ---------------------------------------------------------------------------
  // Keywords

  /** `[k.strip() for k in parts if k.strip()]`. */
  function NonBlankStripped(parts: seq<string>): (ks: seq<string>)
    ensures |ks| <= |parts|
    ensures forall i :: 0 <= i < |ks| ==> ks[i] != "" && IsStripped(ks[i])
  {
    if |parts| == 0 then []
    else
      var k := Strip(parts[0]);
      (if k == "" then [] else [k]) + NonBlankStripped(parts[1..])
  }

  /** How many pieces are not blank once stripped. */
  function NonBlankCount(parts: seq<string>): nat {
    if |parts| == 0 then 0
    else (if Strip(parts[0]) == "" then 0 else 1) + NonBlankCount(parts[1..])
  }

  /** One keyword per non-blank piece. */
  lemma {:induction false} NonBlankStrippedLength(parts: seq<string>)
    ensures |NonBlankStripped(parts)| == NonBlankCount(parts)
    decreases |parts|
  {
    if |parts| > 0 {
      NonBlankStrippedLength(parts[1..]);
    }
  }

  /** The filter works piece by piece, so the keywords keep the cell's order: the
      keywords of two runs of pieces are the keywords of the first, then those of the
      second. */
  lemma {:induction false} NonBlankStrippedAppend(a: seq<string>, b: seq<string>)
    ensures NonBlankStripped(a + b) == NonBlankStripped(a) + NonBlankStripped(b)
    decreases |a|
  {
    if |a| > 0 {
      var k := Strip(a[0]);
      var head: seq<string> := if k == "" then [] else [k];
      assert (a + b)[0] == a[0];
      assert (a + b)[1..] == a[1..] + b;
      assert NonBlankStripped(a + b) == head + NonBlankStripped(a[1..] + b);
      NonBlankStrippedAppend(a[1..], b);
      assert NonBlankStripped(a) == head + NonBlankStripped(a[1..]);
      assert head + (NonBlankStripped(a[1..]) + NonBlankStripped(b)) == head + NonBlankStripped(a[1..]) + NonBlankStripped(b);
    } else {
      assert a + b == b;
    }
  }

  /** What `strip` keeps is a slice, so it holds no character the input lacked. */
  lemma StripKeepsOut(s: string, c: char)
    requires c !in s
    ensures c !in Strip(s)
  {
    var r := Strip(s);
    var a := Span(s, IsSpace);
    forall i | 0 <= i < |r|
      ensures r[i] != c
    {
      assert r[i] == s[a + i];
    }
  }

  lemma {:induction false} NonBlankStrippedKeepsOut(parts: seq<string>, c: char)
    requires forall j :: 0 <= j < |parts| ==> c !in parts[j]
    ensures forall i :: 0 <= i < |NonBlankStripped(parts)| ==> c !in NonBlankStripped(parts)[i]
    decreases |parts|
  {
    if |parts| > 0 {
      StripKeepsOut(parts[0], c);
      NonBlankStrippedKeepsOut(parts[1..], c);
    }
  }

  /** The keywords after the primary one: the comma-separated cell, each piece
      stripped, blank pieces dropped. */
  function KeywordTail(raw: string): (ks: seq<string>)
    ensures forall i :: 0 <= i < |ks| ==> ks[i] != "" && IsStripped(ks[i]) && ',' !in ks[i]
  {
    var parts := Split(raw, ',');
    NonBlankStrippedKeepsOut(parts, ',');
    NonBlankStripped(parts)
  }

  /** A keyword list `KeywordTail` can produce: non-blank, stripped, comma-free. */
  predicate WellFormedKeywords(xs: seq<string>) {
    forall i :: 0 <= i < |xs| ==> xs[i] != "" && IsStripped(xs[i]) && ',' !in xs[i]
  }

  lemma {:induction false} NonBlankStrippedOfStripped(parts: seq<string>, xs: seq<string>)
    requires |parts| == |xs| && WellFormedKeywords(xs)
    requires forall i :: 0 <= i < |parts| ==> Strip(parts[i]) == xs[i]
    ensures NonBlankStripped(parts) == xs
    decreases |parts|
  {
    if |parts| > 0 {
      NonBlankStrippedOfStripped(parts[1..], xs[1..]);
      assert xs == [xs[0]] + xs[1..];
    }
  }

  /** The keyword cell round-trips with the page's keyword line: joining a
      well-formed list with ", " and parsing it back gives the list. */
  lemma KeywordTailRoundTrip(xs: seq<string>)
    requires WellFormedKeywords(xs)
    ensures KeywordTail(Join(xs, ", ")) == xs
  {
    if |xs| == 0 {
      assert Split("", ',') == [""];
      assert Strip("") == "";
    } else {
      assert ", " == [','] + " ";
      SplitJoinPadded(xs, ',', " ");
      var parts := Split(Join(xs, ", "), ',');
      assert parts == [xs[0]] + Prefixed(" ", xs[1..]);
      forall i | 0 <= i < |parts|
        ensures Strip(parts[i]) == xs[i]
      {
        if i == 0 {
          StripStripped(xs[0]);
        } else {
          assert parts[i] == " " + xs[i];
          StripLeftPadded(" ", xs[i]);
        }
      }
      NonBlankStrippedOfStripped(parts, xs);
    }
  }

  /** `[pk] + [k.strip() for k in raw.split(",") if k.strip()]`. */
  function BulkKeywords(pk: string, raw: string): (ks: seq<string>)
    ensures |ks| >= 1 && ks[0] == pk
    ensures forall i :: 1 <= i < |ks| ==> ks[i] != "" && IsStripped(ks[i]) && ',' !in ks[i]
  {
    [pk] + KeywordTail(raw)
  }

  /** The list is the primary keyword and then one entry per non-blank comma piece
      of the cell. */
  lemma BulkKeywordsLength(pk: string, raw: string)
    ensures |BulkKeywords(pk, raw)| == 1 + NonBlankCount(Split(raw, ','))
  {
    NonBlankStrippedLength(Split(raw, ','));
  }

  /** The keyword line the page gets back from a row whose cell is a clean list. */
  lemma PageKeywordsOfCleanCell(pk: string, xs: seq<string>)
    requires WellFormedKeywords(xs)
    ensures BulkKeywords(pk, Join(xs, ", ")) == [pk] + xs
  {
    KeywordTailRoundTrip(xs);
  }

  // ---------------------------------------------------------------------------
  // The draft body written when the completion service is not used

  /** Everything before the first line break. */
  function FirstLine(s: string): (line: string)
    ensures StartsWith(s, line) && '\n' !in line
  {
    match Find(s, "\n")
    case None =>
      assert forall j :: 0 <= j < |s| ==> !OccursAt(s, "\n", j);
      assert forall j :: 0 <= j < |s| ==> s[j] != '\n' by {
        forall j | 0 <= j < |s| ensures s[j] != '\n' {
          assert !OccursAt(s, "\n", j);
          assert s[j..j + 1] == [s[j]];
        }
      }
      s
    case Some(i) =>
      assert forall j :: 0 <= j < i ==> s[j] != '\n' by {
        forall j | 0 <= j < i ensures s[j] != '\n' {
          assert !OccursAt(s, "\n", j);
          assert s[j..j + 1] == [s[j]];
        }
      }
      s[..i]
  }

  /** A line-break-free prefix stays on the first line. */
  lemma FirstLineKeepsPrefix(p: string, rest: string)
    requires '\n' !in p
    ensures StartsWith(FirstLine(p + rest), p)
  {
    var s := p + rest;
    NoBreakIn(p, rest);
    match Find(s, "\n")
    case None =>
    case Some(i) =>
      assert s[..i][..|p|] == p;
  }

  /** A line-break-free prefix ended by a line break is exactly the first line. */
  lemma FirstLineIsPrefix(p: string, rest: string)
    requires '\n' !in p
    ensures FirstLine(p + "\n" + rest) == p
  {
    var s := p + "\n" + rest;
    assert s == p + ("\n" + rest);
    NoBreakIn(p, "\n" + rest);
    assert OccursAt(s, "\n", |p|);
    match Find(s, "\n")
    case None =>
    case Some(i) =>
      assert s[..|p|] == p;
  }

  /** No line break starts inside a line-break-free prefix. */
  lemma NoBreakIn(p: string, rest: string)
    requires '\n' !in p
    ensures forall j :: 0 <= j < |p| ==> !OccursAt(p + rest, "\n", j)
  {
    forall j | 0 <= j < |p|
      ensures !OccursAt(p + rest, "\n", j)
    {
      assert (p + rest)[j] == p[j];
    }
  }

  const DRAFT_LEAD := "## Draft: "
  const FILL_NOTE := "(Please fill this)"

  /** Line 20 as written: the doubled backslashes in the f-string produce a backslash
      and an `n`, not line breaks. */
  function DraftBodyAsWritten(topic: string, structure: string): (body: string)
    ensures StartsWith(body, DRAFT_LEAD + topic + "\\n\\n" + FILL_NOTE)
    ensures EndsWith(body, "\\n\\n" + structure)
  {
    var head := DRAFT_LEAD + topic + "\\n\\n" + FILL_NOTE;
    var body := head + ("\\n\\n" + structure);
    assert body[..|head|] == head;
    assert body[|body| - |"\\n\\n" + structure|..] == "\\n\\n" + structure;
    body
  }

  /** As written, the heading line of the draft runs on into the fill-in note: for any
      topic without a line break the first line is "## Draft: <topic>\n\n(Please fill
      this)…" with literal backslashes. */
  lemma DraftHeadingSwallowsNote(topic: string, structure: string)
    requires '\n' !in topic
    ensures StartsWith(FirstLine(DraftBodyAsWritten(topic, structure)),
                       DRAFT_LEAD + topic + "\\n\\n" + FILL_NOTE)
  {
    var p := DRAFT_LEAD + topic + "\\n\\n" + FILL_NOTE + "\\n\\n";
    assert '\n' !in p by {
      forall i | 0 <= i < |p| ensures p[i] != '\n' {
        if |DRAFT_LEAD| <= i < |DRAFT_LEAD| + |topic| {
          assert p[i] == topic[i - |DRAFT_LEAD|];
        }
      }
    }
    assert DraftBodyAsWritten(topic, structure) == p + structure;
    FirstLineKeepsPrefix(p, structure);
    var q := DRAFT_LEAD + topic + "\\n\\n" + FILL_NOTE;
    assert p[..|q|] == q;
  }

  /** The draft with real line breaks, as evidently intended: a heading, the note
      and the template, separated by blank lines. */
  function DraftBody(topic: string, structure: string): (body: string)
    ensures StartsWith(body, DRAFT_LEAD + topic + "\n")
    ensures EndsWith(body, "\n\n" + structure)
  {
    var body := DRAFT_LEAD + topic + "\n" + ("\n" + FILL_NOTE + "\n\n" + structure);
    assert body[..|DRAFT_LEAD + topic + "\n"|] == DRAFT_LEAD + topic + "\n";
    assert body[|body| - |"\n\n" + structure|..] == "\n\n" + structure;
    body
  }

  /** With real line breaks the heading line holds the topic and nothing more. */
  lemma DraftHeadingIsTopic(topic: string, structure: string)
    requires '\n' !in topic
    ensures FirstLine(DraftBody(topic, structure)) == DRAFT_LEAD + topic
  {
    var p := DRAFT_LEAD + topic;
    assert '\n' !in p by {
      forall i | 0 <= i < |p| ensures p[i] != '\n' {
        if |DRAFT_LEAD| <= i {
          assert p[i] == topic[i - |DRAFT_LEAD|];
        }
      }
    }
    var rest := "\n" + FILL_NOTE + "\n\n" + structure;
    assert DraftBody(topic, structure) == p + "\n" + rest;
    FirstLineIsPrefix(p, rest);
  }

  // ---------------------------------------------------------------------------
  // One row

  const TITLE_SUFFIX := " \U{2014} A Complete Guide"

  /** The order of the keys in the dictionary literal of lines 21-36: the canonical
      URL comes right after the reading time, where `generator.py` puts it last. */
  const BULK_KEY_ORDER: seq<string> := [
    "title", "author", "date", "primary_keyword", "audience", "company", "slug",
    "reading_time_min", "canonical_url", "keywords", "meta_description", "og_image",
    "og_title", "og_description"]

  /** The metadata of one row's post. Every key is stored, so the Open Graph fields
      and the canonical URL reach the page as given, empty or not. */
  function BulkMeta(inputs: RowInputs, row: Row, body: string, today: string, libs: Libraries): (m: PostMeta)
    ensures m.title == OrElse(Field(row, "title"), inputs.topic + TITLE_SUFFIX)
    ensures m.slug == SeoSlug(inputs.topic, libs.slugify) && |m.slug| <= SLUG_MAX
    ensures m.keywords == BulkKeywords(inputs.primaryKeyword, Field(row, "keywords"))
    ensures m.readingTimeMin == EstReadingTime(body) && m.readingTimeMin >= 1
    ensures m.author == Author(inputs.authorName, inputs.authorTitle)
    ensures m.canonicalUrl == Some(Field(row, "canonical_url"))
    ensures m.ogTitle == Some(Field(row, "og_title"))
    ensures m.ogDescription == Some(Field(row, "og_description"))
    ensures m.metaDescription == Field(row, "meta_description")
    ensures m.date == today && m.company == inputs.company && m.audience == inputs.audience
    ensures m.primaryKeyword == inputs.primaryKeyword && m.ogImage == Field(row, "og_image")
    ensures m.keyOrder == BULK_KEY_ORDER
  {
    PostMeta(
      title := OrElse(Field(row, "title"), inputs.topic + TITLE_SUFFIX),
      author := Author(inputs.authorName, inputs.authorTitle),
      date := today,
      primaryKeyword := inputs.primaryKeyword,
      audience := inputs.audience,
      company := inputs.company,
      slug := SeoSlug(inputs.topic, libs.slugify),
      readingTimeMin := EstReadingTime(body),
      canonicalUrl := Some(Field(row, "canonical_url")),
      keywords := BulkKeywords(inputs.primaryKeyword, Field(row, "keywords")),
      metaDescription := Field(row, "meta_description"),
      ogImage := Field(row, "og_image"),
      ogTitle := Some(Field(row, "og_title")),
      ogDescription := Some(Field(row, "og_description")),
      keyOrder := BULK_KEY_ORDER)
  }

  /** Both programs store the same fourteen keys but insert them in a different
      order, so `yaml.safe_dump(meta, sort_keys=False)` lists the canonical URL last
      in a post from `generator.py` and after the reading time in a batch post. */
  lemma KeyOrdersDiffer(inputs: RowInputs, row: Row, body: string, args: Generator.CliArgs,
                        body2: string, today: string, libs: Libraries)
    ensures var b := BulkMeta(inputs, row, body, today, libs).keyOrder;
      var g := Generator.GeneratorMeta(args, body2, today, libs).keyOrder;
      && |g| == 14 && g[13] == "canonical_url"
      && b == g[..8] + [g[13]] + g[8..13]
      && b != g
  {
    KeyOrderMoved();
  }

  /** The batch order is the single generator's with the canonical URL moved from
      the end to just after the reading time. */
  lemma KeyOrderMoved()
    ensures var g := Generator.GENERATOR_KEY_ORDER;
      && |g| == 14 && g[13] == "canonical_url"
      && BULK_KEY_ORDER == g[..8] + [g[13]] + g[8..13]
      && BULK_KEY_ORDER != g
  {
    var b := BULK_KEY_ORDER;
    var g := Generator.GENERATOR_KEY_ORDER;
    assert b[8] != g[8];
  }

  /** The Markdown file's path below the project directory. */
  function MdPath(slug: string): (p: string)
    ensures StartsWith(p, "output/") && EndsWith(p, ".md")
    ensures |p| == |slug| + 10 && p[7..|p| - 3] == slug
  {
    var p := "output/" + slug + ".md";
    assert p[..7] == "output/";
    assert p[|p| - 3..] == ".md";
    assert p[7..|p| - 3] == slug;
    p
  }

  /** What `generate_one` returns, with the file content it wrote. */
  datatype Generated = Generated(meta: PostMeta, body: string, mdPath: string, mdContent: string)

  /** `cfg["model"]["name"]`, `["api_base"]`, `["key_env"]`, looked up before the call. */
  function ModelKeys(model: map<string, string>): (r: Result<(), Generator.RunError>)
    ensures r.Success? <==> "name" in model && "api_base" in model && "key_env" in model
  {
    if "name" !in model then Failure(Generator.MissingConfigKey("model.name"))
    else if "api_base" !in model then Failure(Generator.MissingConfigKey("model.api_base"))
    else if "key_env" !in model then Failure(Generator.MissingConfigKey("model.key_env"))
    else Success(())
  }

  /** `generate_one` for one row, with the completion service's answer as `reply`
      (consulted only when AI is on). A row fails on a year `int()` rejects, and with
      AI on also on a missing model setting or a failed call; the Markdown file is the
      front matter, a blank line and the body, which is NOT stripped here. With AI
      off the body is the draft as the code writes it, literal backslashes included. */
  function GenerateOne(row: Row, cfg: BulkConfig, structureText: string, useAi: bool,
                       reply: Result<string, string>, today: string, libs: Libraries): (r: Result<Generated, Generator.RunError>)
    ensures r.Failure? <==>
      || ParseInt(YearText(row, cfg.defaults)).None?
      || (useAi && (ModelKeys(cfg.model).Failure? || reply.Failure?))
    ensures r.Success? && useAi ==> r.value.body == reply.value
    ensures r.Success? && !useAi ==> r.value.body == DraftBodyAsWritten(Topic(row), structureText)
    ensures r.Success? ==>
      && ResolveRow(row, cfg.defaults).Success?
      && r.value.meta == BulkMeta(ResolveRow(row, cfg.defaults).value, row, r.value.body, today, libs)
    ensures r.Success? ==> r.value.meta.slug == SeoSlug(Topic(row), libs.slugify)
    ensures r.Success? ==> r.value.meta.title == OrElse(Field(row, "title"), Topic(row) + TITLE_SUFFIX)
    ensures r.Success? ==> r.value.meta.readingTimeMin == EstReadingTime(r.value.body)
    ensures r.Success? ==> r.value.mdPath == MdPath(r.value.meta.slug)
    ensures r.Success? ==> StartsWith(r.value.mdContent, FrontMatter(r.value.meta, libs))
    ensures r.Success? ==> EndsWith(r.value.mdContent, "\n" + r.value.body)
    ensures r.Success? ==> |r.value.mdContent| == |FrontMatter(r.value.meta, libs)| + 1 + |r.value.body|
  {
    match ResolveRow(row, cfg.defaults)
    case Failure(e) => Failure(e)
    case Success(inputs) =>
      var model := if useAi then ModelKeys(cfg.model) else Success(());
      if model.Failure? then Failure(model.error)
      else if useAi && reply.Failure? then Failure(Generator.CompletionFailed(reply.error))
      else
        var body := if useAi then reply.value else DraftBodyAsWritten(inputs.topic, structureText);
        Success(WriteRow(BulkMeta(inputs, row, body, today, libs), body, libs))
  }

  /** The file `generate_one` writes for a post: front matter, a blank line, the body. */
  function WriteRow(meta: PostMeta, body: string, libs: Libraries): (g: Generated)
    ensures g.meta == meta && g.body == body && g.mdPath == MdPath(meta.slug)
    ensures StartsWith(g.mdContent, FrontMatter(meta, libs))
    ensures EndsWith(g.mdContent, "\n" + body)
    ensures |g.mdContent| == |FrontMatter(meta, libs)| + 1 + |body|
  {
    var fm := FrontMatter(meta, libs);
    var content := fm + "\n" + body;
    assert content[..|fm|] == fm;
    assert content[|content| - |"\n" + body|..] == "\n" + body;
    Generated(meta, body, MdPath(meta.slug), content)
  }

  /** Two rows on the same topic write the same file, whatever their titles: the
      slug comes from the topic alone, so the later row overwrites the earlier. */
  lemma SameTopicSameFile(row1: Row, row2: Row, cfg: BulkConfig, structureText: string, useAi: bool,
                          reply1: Result<string, string>, reply2: Result<string, string>,
                          today: string, libs: Libraries)
    requires Topic(row1) == Topic(row2)
    requires ParseInt(YearText(row1, cfg.defaults)).Some? && ParseInt(YearText(row2, cfg.defaults)).Some?
    requires useAi ==> ModelKeys(cfg.model).Success? && reply1.Success? && reply2.Success?
    ensures GenerateOne(row1, cfg, structureText, useAi, reply1, today, libs).value.mdPath
         == GenerateOne(row2, cfg, structureText, useAi, reply2, today, libs).value.mdPath
  {
  }

  // ---------------------------------------------------------------------------
  // The batch

  /** The rows generated before the loop stopped, and why it stopped, if it did. */
  datatype Batch = Batch(done: seq<Generated>, failure: Option<Generator.RunError>)

  /** The rows' successes up to the first failure, and that failure. */
  function UntilFailure(outcomes: seq<Result<Generated, Generator.RunError>>): (b: Batch)
    ensures |b.done| <= |outcomes|
    ensures forall i :: 0 <= i < |b.done| ==> outcomes[i] == Success(b.done[i])
    ensures b.failure.None? ==> |b.done| == |outcomes|
    ensures b.failure.Some? ==> |b.done| < |outcomes| && outcomes[|b.done|] == Failure(b.failure.value)
  {
    if |outcomes| == 0 then Batch([], None)
    else
      match outcomes[0]
      case Failure(e) => Batch([], Some(e))
      case Success(g) =>
        var rest := UntilFailure(outcomes[1..]);
        Batch([g] + rest.done, rest.failure)
  }

  /** What `generate_one` would do with each row and its completion answer. */
  function Outcomes(rows: seq<Row>, cfg: BulkConfig, structureText: string, useAi: bool,
                    replies: seq<Result<string, string>>, today: string, libs: Libraries)
    : (os: seq<Result<Generated, Generator.RunError>>)
    requires |replies| == |rows|
    ensures |os| == |rows|
    ensures forall i :: 0 <= i < |rows| ==> os[i] == GenerateOne(rows[i], cfg, structureText, useAi, replies[i], today, libs)
  {
    seq(|rows|, i requires 0 <= i < |rows| => GenerateOne(rows[i], cfg, structureText, useAi, replies[i], today, libs))
  }

  /** The loop of `main` over the rows, with one completion answer per row. An
      exception in `generate_one` ends the program, so the batch stops at the first
      failing row; the files of the rows before it are already written. */
  function GenerateRows(rows: seq<Row>, cfg: BulkConfig, structureText: string, useAi: bool,
                        replies: seq<Result<string, string>>, today: string, libs: Libraries): (b: Batch)
    requires |replies| == |rows|
    ensures |b.done| <= |rows|
    ensures forall i :: 0 <= i < |b.done| ==>
      GenerateOne(rows[i], cfg, structureText, useAi, replies[i], today, libs) == Success(b.done[i])
    ensures b.failure.None? ==> |b.done| == |rows|
    ensures b.failure.Some? ==>
      && |b.done| < |rows|
      && GenerateOne(rows[|b.done|], cfg, structureText, useAi, replies[|b.done|], today, libs)
           == Failure(b.failure.value)
  {
    UntilFailure(Outcomes(rows, cfg, structureText, useAi, replies, today, libs))
  }

  /** The batch finishes exactly when no row fails. */
  lemma {:induction false} BatchCompletesIffNoRowFails(rows: seq<Row>, cfg: BulkConfig, structureText: string,
                                                       useAi: bool, replies: seq<Result<string, string>>,
                                                       today: string, libs: Libraries)
    requires |replies| == |rows|
    ensures GenerateRows(rows, cfg, structureText, useAi, replies, today, libs).failure.None? <==>
      forall i :: 0 <= i < |rows| ==>
        GenerateOne(rows[i], cfg, structureText, useAi, replies[i], today, libs).Success?
    decreases |rows|
  {
    var b := GenerateRows(rows, cfg, structureText, useAi, replies, today, libs);
    if b.failure.Some? {
      var k := |b.done|;
      assert GenerateOne(rows[k], cfg, structureText, useAi, replies[k], today, libs).Failure?;
    } else {
      forall i | 0 <= i < |rows|
        ensures GenerateOne(rows[i], cfg, structureText, useAi, replies[i], today, libs).Success?
      {
        assert GenerateOne(rows[i], cfg, structureText, useAi, replies[i], today, libs) == Success(b.done[i]);
      }
    }
  }

  // ---------------------------------------------------------------------------
  // Pages

  /** What the link suggester is given for each generated post. */
  function Summaries(results: seq<Generated>): (ps: seq<PostSummary>)
    ensures |ps| == |results|
    ensures forall i :: 0 <= i < |results| ==>
      ps[i] == PostSummary(results[i].meta.title, results[i].meta.slug,
                           results[i].meta.canonicalUrl.GetOr(""), results[i].body)
  {
    seq(|results|, i requires 0 <= i < |results| =>
      PostSummary(results[i].meta.title, results[i].meta.slug,
                  results[i].meta.canonicalUrl.GetOr(""), results[i].body))
  }

  /** `link_suggestions[i] if i < len(link_suggestions) else []`. */
  function LinksFor(suggestions: seq<seq<LinkSuggestion>>, i: nat): (links: seq<LinkSuggestion>)
    ensures i < |suggestions| ==> links == suggestions[i]
    ensures i >= |suggestions| ==> links == []
  {
    if i < |suggestions| then suggestions[i] else []
  }

  /** The last index below `k` at which `c` occurs in `s`. */
  function LastBefore(s: string, c: char, k: nat): (r: Option<nat>)
    requires k <= |s|
    ensures r.Some? ==> r.value < k && s[r.value] == c && forall j :: r.value < j < k ==> s[j] != c
    ensures r.None? ==> forall j :: 0 <= j < k ==> s[j] != c
    decreases k
  {
    if k == 0 then None
    else if s[k - 1] == c then Some(k - 1)
    else LastBefore(s, c, k - 1)
  }

  /** `s.rfind(c)`: the last index of `c` in `s`. */
  function LastIndexOf(s: string, c: char): (r: Option<nat>)
    ensures r.Some? ==> r.value < |s| && s[r.value] == c && forall j :: r.value < j < |s| ==> s[j] != c
    ensures r.None? ==> c !in s
  {
    LastBefore(s, c, |s|)
  }

  lemma {:induction false} LastBeforeAt(s: string, c: char, k: nat, i: nat)
    requires i < k <= |s| && s[i] == c
    requires forall j :: i < j < k ==> s[j] != c
    ensures LastBefore(s, c, k) == Some(i)
    decreases k
  {
    if i < k - 1 {
      LastBeforeAt(s, c, k - 1, i);
    }
  }

  /** A position holding `c` with no `c` after it is the last occurrence. */
  lemma LastIndexOfAt(s: string, c: char, i: nat)
    requires i < |s| && s[i] == c
    requires forall j :: i < j < |s| ==> s[j] != c
    ensures LastIndexOf(s, c) == Some(i)
  {
    LastBeforeAt(s, c, |s|, i);
  }

  /** Where the final path component starts: just after the last '/'. */
  function NameStart(path: string): (start: nat)
    ensures start <= |path|
    ensures forall j :: start <= j < |path| ==> path[j] != '/'
  {
    match LastIndexOf(path, '/')
    case Some(k) => k + 1
    case None => 0
  }

  /** Where a file name's suffix starts: at its last dot, unless that dot is the
      name's first or last character, in which case it has none. */
  function SuffixStart(name: string): (r: Option<nat>)
    ensures r.Some? ==> 0 < r.value < |name| - 1 && name[r.value] == '.'
  {
    match LastIndexOf(name, '.')
    case Some(d) => if 0 < d < |name| - 1 then Some(d) else None
    case None => None
  }

  /** pathlib's `with_suffix`: the final component's suffix is replaced; a component
      without one gets the suffix appended. */
  function WithSuffix(path: string, suffix: string): (r: string)
    ensures StartsWith(r, path[..NameStart(path)])
    ensures EndsWith(r, suffix)
  {
    var start := NameStart(path);
    var r := match SuffixStart(path[start..])
      case Some(d) => path[..start + d] + suffix
      case None => path + suffix;
    assert r[..start] == path[..start];
    assert r[|r| - |suffix|..] == suffix;
    r
  }

  lemma LastSlashOfMdPath(slug: string)
    requires '/' !in slug
    ensures NameStart(MdPath(slug)) == 7
  {
    var path := MdPath(slug);
    var name := slug + ".md";
    assert path == "output/" + name;
    assert path[6] == '/';
    forall j | 6 < j < |path|
      ensures path[j] != '/'
    {
      assert path[j] == name[j - 7];
      if j - 7 < |slug| {
        assert name[j - 7] == slug[j - 7];
      }
    }
    LastIndexOfAt(path, '/', 6);
  }

  lemma SuffixOfMdName(slug: string)
    ensures slug != "" ==> SuffixStart(slug + ".md") == Some(|slug|)
    ensures slug == "" ==> SuffixStart(slug + ".md") == None
  {
    var name := slug + ".md";
    assert name[|slug|] == '.' && name[|slug| + 1] == 'm' && name[|slug| + 2] == 'd';
    LastIndexOfAt(name, '.', |slug|);
  }

  /** The page sits next to its Markdown file, except that an empty slug gives the
      file name ".md", which pathlib reads as having no suffix. */
  lemma HtmlPathOfSlug(slug: string)
    requires '/' !in slug
    ensures slug != "" ==> WithSuffix(MdPath(slug), ".html") == "output/" + slug + ".html"
    ensures slug == "" ==> WithSuffix(MdPath(slug), ".html") == "output/.md.html"
  {
    var path := MdPath(slug);
    LastSlashOfMdPath(slug);
    assert path[7..] == slug + ".md";
    SuffixOfMdName(slug);
    assert path[..7 + |slug|] == "output/" + slug;
  }

  /** One rendered page: where it goes and what the template receives. */
  datatype Page = Page(htmlPath: string, context: PageContext)

  /** The rendering loop: each result is rendered from its own metadata and unstripped
      body with the suggestions at its own index. */
  function RenderAll(results: seq<Generated>, suggestions: seq<seq<LinkSuggestion>>, libs: Libraries): (pages: seq<Page>)
    ensures |pages| == |results|
    ensures forall i :: 0 <= i < |results| ==>
      && pages[i].htmlPath == WithSuffix(results[i].mdPath, ".html")
      && pages[i].context == RenderHtml(results[i].meta, results[i].body, LinksFor(suggestions, i), libs)
  {
    seq(|results|, i requires 0 <= i < |results| =>
      Page(WithSuffix(results[i].mdPath, ".html"),
           RenderHtml(results[i].meta, results[i].body, LinksFor(suggestions, i), libs)))
  }

  const BULK_TRUE_WORDS: seq<string> := ["true", "1", "y", "yes"]

  /** `str(args.use_ai).lower() in ("true", "1", "y", "yes")`. */
  function BulkUseAi(arg: string): (on: bool)
    ensures on <==> Lower(arg) in BULK_TRUE_WORDS
  {
    Lower(arg) in BULK_TRUE_WORDS
  }

  /** Both programs read the AI flag the same way. */
  lemma BulkUseAiAgrees(arg: string)
    ensures BulkUseAi(arg) == Generator.UseAi(arg)
  {
    assert Lower(arg) in BULK_TRUE_WORDS <==> Lower(arg) in Generator.TRUE_WORDS;
  }

  /** A run of `main`: the Markdown files written, the pages rendered, and the error
      that ended it early, if any. */
  datatype BulkRun = BulkRun(written: seq<Generated>, pages: seq<Page>, failure: Option<Generator.RunError>)

  /** `main` once the arguments are parsed, the template and the CSV file are read and
      the completion service has answered each row. The suggester runs once over all
      posts, and only when every row succeeded. */
  function BulkMain(cfg: BulkConfig, structureText: string, rows: seq<Row>, useAiArg: string,
                    replies: seq<Result<string, string>>, today: string, libs: Libraries): (run: BulkRun)
    requires |replies| == |rows|
    ensures "structure_path" !in cfg.paths ==>
      run == BulkRun([], [], Some(Generator.MissingConfigKey("paths.structure_path")))
    ensures run.failure.None? ==> |run.written| == |rows| && |run.pages| == |rows|
    ensures run.failure.Some? ==> run.pages == [] && |run.written| <= |rows|
    ensures "structure_path" in cfg.paths ==>
      var batch := GenerateRows(rows, cfg, structureText, BulkUseAi(useAiArg), replies, today, libs);
      run.written == batch.done && run.failure == batch.failure
    ensures forall i :: 0 <= i < |run.pages| ==>
      && i < |run.written|
      && run.pages[i].htmlPath == WithSuffix(run.written[i].mdPath, ".html")
      && run.pages[i].context
           == RenderHtml(run.written[i].meta, run.written[i].body,
                         LinksFor(libs.suggestLinks(Summaries(run.written)), i), libs)
  {
    if "structure_path" !in cfg.paths then
      BulkRun([], [], Some(Generator.MissingConfigKey("paths.structure_path")))
    else
      var batch := GenerateRows(rows, cfg, structureText, BulkUseAi(useAiArg), replies, today, libs);
      if batch.failure.Some? then BulkRun(batch.done, [], batch.failure)
      else
        var suggestions := libs.suggestLinks(Summaries(batch.done));
        BulkRun(batch.done, RenderAll(batch.done, suggestions, libs), None)
  }
}

=== FILE: generator.dfy ===
/** The single-post generator of `generator.py`: splitting the structure template at
    "Part 2:", the placeholder body used when AI is off, the `--use_ai` flag, the
    metadata record `main` assembles, the Markdown file it writes, the heading clean-up
    applied before HTML rendering, and the HTML page's inputs. */
module Generator {
  import opened Wrappers
  import opened Text
  import opened Utils

  /** Why a run stops before it writes anything. */
  datatype RunError =
    | MissingConfigKey(key: string)   // a `KeyError` on the configuration
    | CompletionFailed(message: string)   // the completion call raised
    | InvalidYear(text: string)   // `int()` raised `ValueError`

  // ---------------------------------------------------------------------------
  // Structure template

  const DELIMITER := "Part 2:"

  datatype BlogParts = BlogParts(part1: string, part2: string)

  lemma OccursInSlice(x: string, p: string, a: nat, b: nat, j: int)
    requires a <= b <= |x|
    requires OccursAt(x[a..b], p, j)
    ensures OccursAt(x, p, a + j)
  {
    forall k | 0 <= k < |p|
      ensures x[a + j + k] == p[k]
    {
      assert x[a..b][j..j + |p|][k] == p[k];
    }
    assert x[a + j..a + j + |p|] == p;
  }

  lemma AbsentInSlice(x: string, p: string, a: nat, b: nat)
    requires a <= b <= |x|
    requires !Contains(x, p)
    ensures !Contains(x[a..b], p)
  {
    if Contains(x[a..b], p) {
      var j :| 0 <= j <= |x[a..b]| - |p| && OccursAt(x[a..b], p, j);
      OccursInSlice(x, p, a, b, j);
    }
  }

  lemma AbsentInStrip(x: string, p: string)
    requires !Contains(x, p)
    ensures !Contains(Strip(x), p)
  {
    var a := Span(x, IsSpace);
    AbsentInSlice(x, p, a, a + |Strip(x)|);
  }

  /** Nothing before the leftmost occurrence contains another one. */
  lemma AbsentBeforeFirst(t: string, p: string, i: nat)
    requires |p| > 0
    requires Find(t, p) == Some(i)
    ensures !Contains(t[..i], p)
  {
    if Contains(t[..i], p) {
      var j :| 0 <= j <= |t[..i]| - |p| && OccursAt(t[..i], p, j);
      OccursInSlice(t, p, 0, i, j);
    }
  }

  /** The text before the next delimiter, or all of it when there is none. */
  function UpToDelimiter(rest: string): (m: string)
    ensures !Contains(m, DELIMITER)
    ensures StartsWith(rest, m)
    ensures !Contains(rest, DELIMITER) ==> m == rest
  {
    FindNoneIffAbsent(rest, DELIMITER);
    match Find(rest, DELIMITER)
    case None => rest
    case Some(j) =>
      AbsentBeforeFirst(rest, DELIMITER, j);
      rest[..j]
  }

  /** `load_blog_parts` once the file is read: `part1` is the stripped text before the
      first delimiter; `part2` is the delimiter followed by the stripped text between
      the first and the second delimiter, or empty when there is no delimiter. */
  function LoadBlogParts(text: string): (parts: BlogParts)
    ensures parts.part2 == "" <==> !Contains(text, DELIMITER)
    ensures !Contains(parts.part1, DELIMITER)
    ensures parts.part2 != "" ==> StartsWith(parts.part2, DELIMITER)
    ensures parts.part2 != "" ==> !Contains(parts.part2[|DELIMITER|..], DELIMITER)
    ensures !Contains(text, DELIMITER) ==> parts.part1 == Strip(text)
  {
    FindNoneIffAbsent(text, DELIMITER);
    match Find(text, DELIMITER)
    case None =>
      AbsentInStrip(text, DELIMITER);
      BlogParts(Strip(text), "")
    case Some(i) =>
      AbsentBeforeFirst(text, DELIMITER, i);
      AbsentInStrip(text[..i], DELIMITER);
      var middle := UpToDelimiter(text[i + |DELIMITER|..]);
      AbsentInStrip(middle, DELIMITER);
      var part2 := DELIMITER + Strip(middle);
      assert part2[|DELIMITER|..] == Strip(middle);
      BlogParts(Strip(text[..i]), part2)
  }

  /** The delimiter starts with the only 'P' it contains, so it cannot overlap itself:
      after a delimiter-free prefix, the appended delimiter is the first occurrence. */
  lemma FindAfterFreePrefix(a: string, rest: string)
    requires !Contains(a, DELIMITER)
    ensures Find(a + DELIMITER + rest, DELIMITER) == Some(|a|)
  {
    var s := a + DELIMITER + rest;
    var n := |DELIMITER|;
    assert s[|a|..|a| + n] == DELIMITER;
    assert OccursAt(s, DELIMITER, |a|);
    var r := Find(s, DELIMITER);
    assert r.Some?;
    var k := r.value;
    if k < |a| {
      if k + n <= |a| {
        assert s[k..k + n] == a[k..k + n];
        assert OccursAt(a, DELIMITER, k);
      } else {
        DelimiterDoesNotOverlap(s, k, |a|);
        assert false;
      }
    }
  }

  /** Inside an occurrence of the delimiter, past its first character, no 'P' appears. */
  lemma DelimiterDoesNotOverlap(s: string, k: nat, i: nat)
    requires OccursAt(s, DELIMITER, k)
    requires k < i < k + |DELIMITER|
    ensures s[i] != 'P'
  {
    assert s[k..k + |DELIMITER|][i - k] == s[i];
  }

  /** The two shapes a template takes: one delimiter, or a second one after which
      everything is dropped. */
  lemma LoadBlogPartsOfPieces(a: string, b: string, c: string)
    requires !Contains(a, DELIMITER) && !Contains(b, DELIMITER)
    ensures LoadBlogParts(a + DELIMITER + b) == BlogParts(Strip(a), DELIMITER + Strip(b))
    ensures LoadBlogParts(a + DELIMITER + b + DELIMITER + c) == BlogParts(Strip(a), DELIMITER + Strip(b))
  {
    LoadBlogPartsOfOne(a, b);
    var ad := a + DELIMITER;
    AppendAssoc(ad + b, DELIMITER, c);
    AppendAssoc(ad, b, DELIMITER + c);
    AppendAssoc(b, DELIMITER, c);
    LoadBlogPartsOfTwo(a, b, c);
  }

  lemma AppendAssoc(x: string, y: string, z: string)
    ensures x + y + z == x + (y + z)
  {
  }

  lemma LoadBlogPartsOfOne(a: string, b: string)
    requires !Contains(a, DELIMITER) && !Contains(b, DELIMITER)
    ensures LoadBlogParts(a + DELIMITER + b) == BlogParts(Strip(a), DELIMITER + Strip(b))
  {
    var n := |DELIMITER|;
    var s := a + DELIMITER + b;
    FindAfterFreePrefix(a, b);
    assert s[..|a|] == a;
    assert s[|a| + n..] == b;
    FindNoneIffAbsent(b, DELIMITER);
  }

  lemma LoadBlogPartsOfTwo(a: string, b: string, c: string)
    requires !Contains(a, DELIMITER) && !Contains(b, DELIMITER)
    ensures LoadBlogParts(a + DELIMITER + (b + DELIMITER + c)) == BlogParts(Strip(a), DELIMITER + Strip(b))
  {
    var n := |DELIMITER|;
    var tail := b + DELIMITER + c;
    var s := a + DELIMITER + tail;
    FindAfterFreePrefix(a, tail);
    assert s[..|a|] == a;
    assert s[|a| + n..] == tail;
    FindAfterFreePrefix(b, c);
    assert tail[..|b|] == b;
  }

  // ---------------------------------------------------------------------------
  // Heading clean-up: re.sub(r'(?im)^#+\s*Module\s+\d+:\s*', '## ', md)

  /** The character classes the pattern repeats: `#`, `\s` and `\d`. */
  datatype CharClass = Hash | Space | Digit

  predicate InClass(ch: char, c: CharClass) {
    match c
    case Hash => ch == '#'
    case Space => IsSpace(ch)
    case Digit => IsDigit(ch)
  }

  /** `^` under MULTILINE: the start of the text or just after a newline. */
  predicate AtLineStart(s: string, i: nat) {
    i == 0 || (i <= |s| && s[i - 1] == '\n')
  }

  /** Where the run of characters of class `c` that starts at `i` ends: a greedy
      `#*`, `\s*` or `\d*`. */
  function RunEnd(s: string, i: nat, c: CharClass): (j: nat)
    requires i <= |s|
    ensures i <= j <= |s|
    decreases |s| - i
  {
    if i < |s| && InClass(s[i], c) then RunEnd(s, i + 1, c) else i
  }

  /** A run is exactly the stretch of `p` characters up to the first other one. */
  lemma {:induction false} RunEndAt(s: string, i: nat, j: nat, c: CharClass)
    requires i <= j <= |s|
    requires forall k :: i <= k < j ==> InClass(s[k], c)
    requires j == |s| || !InClass(s[j], c)
    ensures RunEnd(s, i, c) == j
    decreases j - i
  {
    if i < j {
      RunEndAt(s, i + 1, j, c);
    }
  }

  /** "module" at `k`, each letter compared after lower-casing (the `(?i)` flag). */
  predicate ModuleAt(s: string, k: nat)
    requires k + 6 <= |s|
  {
    && LowerChar(s[k]) == 'm' && LowerChar(s[k + 1]) == 'o' && LowerChar(s[k + 2]) == 'd'
    && LowerChar(s[k + 3]) == 'u' && LowerChar(s[k + 4]) == 'l' && LowerChar(s[k + 5]) == 'e'
  }

  /** `#+\s*Module` at `i`, letters matched without regard to case: the index just
      past "Module". Every quantifier is greedy and no shorter choice can lead to a
      match, so there is nothing to backtrack. */
  function HashesAndModule(s: string, i: nat): (r: Option<nat>)
    requires i <= |s|
    ensures r.Some? ==> i + 7 <= r.value <= |s|
  {
    var hashesEnd := RunEnd(s, i, Hash);
    var m := RunEnd(s, hashesEnd, Space);
    if hashesEnd == i || m + 6 > |s| || !ModuleAt(s, m) then None
    else Some(m + 6)
  }

  /** `\s+\d+:\s*` at `j`: the index just past the trailing whitespace. */
  function NumberAndColon(s: string, j: nat): (r: Option<nat>)
    requires j <= |s|
    ensures r.Some? ==> j + 3 <= r.value <= |s|
  {
    var d := RunEnd(s, j, Space);
    var colon := RunEnd(s, d, Digit);
    if d == j || colon == d || colon == |s| || s[colon] != ':' then None
    else Some(RunEnd(s, colon + 1, Space))
  }

  /** The whole pattern `#+\s*Module\s+\d+:\s*` at `i`. */
  function HeadingMatch(s: string, i: nat): (r: Option<nat>)
    requires i <= |s|
    ensures r.Some? ==> i + 10 <= r.value <= |s|
  {
    match HashesAndModule(s, i)
    case None => None
    case Some(j) => NumberAndColon(s, j)
  }

  predicate HeadingAt(s: string, i: nat) {
    i < |s| && AtLineStart(s, i) && HeadingMatch(s, i).Some?
  }

  ghost predicate HasModuleHeading(s: string) {
    exists i :: 0 <= i < |s| && HeadingAt(s, i)
  }

  /** `re.sub` from index `i` on: every match is replaced by "## " and the scan
      resumes after it; `^` still looks at the character before in the whole text. */
  function CleanFrom(s: string, i: nat): (r: string)
    requires i <= |s|
    ensures |r| <= |s| - i
    decreases |s| - i
  {
    if i == |s| then ""
    else if HeadingAt(s, i) then "## " + CleanFrom(s, HeadingMatch(s, i).value)
    else [s[i]] + CleanFrom(s, i + 1)
  }

  /** `clean_headings`: "Module N:" heading prefixes become "## ". */
  function CleanHeadings(md: string): (r: string)
    ensures |r| <= |md|
  {
    CleanFrom(md, 0)
  }

  lemma {:induction false} CleanFromWithoutHeadings(s: string, i: nat)
    requires i <= |s|
    requires forall k :: i <= k < |s| ==> !HeadingAt(s, k)
    ensures CleanFrom(s, i) == s[i..]
    decreases |s| - i
  {
    if i < |s| {
      CleanFromWithoutHeadings(s, i + 1);
      assert s[i..] == [s[i]] + s[i + 1..];
    }
  }

  lemma {:induction false} CleanFromShortens(s: string, i: nat, j: nat)
    requires i <= j < |s|
    requires HeadingAt(s, j)
    ensures |CleanFrom(s, i)| < |s| - i
    decreases |s| - i
  {
    if HeadingAt(s, i) {
      var m := HeadingMatch(s, i).value;
      assert CleanFrom(s, i) == "## " + CleanFrom(s, m);
    } else {
      CleanFromShortens(s, i + 1, j);
      assert CleanFrom(s, i) == [s[i]] + CleanFrom(s, i + 1);
    }
  }

  /** The text comes back unchanged exactly when no line starts with a "Module N:"
      heading; otherwise it comes back strictly shorter. */
  lemma CleanHeadingsUnchangedIff(md: string)
    ensures CleanHeadings(md) == md <==> !HasModuleHeading(md)
  {
    if HasModuleHeading(md) {
      var j :| 0 <= j < |md| && HeadingAt(md, j);
      CleanFromShortens(md, 0, j);
    } else {
      CleanFromWithoutHeadings(md, 0);
    }
  }

  /** The `(?i)` flag: `ModuleAt` holds exactly where the six characters, lower-cased,
      spell "module". */
  lemma ModuleAtIffLower(s: string, k: nat)
    requires k + 6 <= |s|
    ensures ModuleAt(s, k) <==> Lower(s[k..k + 6]) == "module"
  {
    var w := Lower(s[k..k + 6]);
    assert forall i :: 0 <= i < 6 ==> w[i] == LowerChar(s[k + i]);
    if ModuleAt(s, k) {
      assert w == "module";
    }
  }

  lemma HashesAndModuleOfLayout(s: string, h: nat)
    requires 1 <= h && h + 7 <= |s|
    requires forall i :: 0 <= i < h ==> s[i] == '#'
    requires s[h] == ' ' && ModuleAt(s, h + 1)
    ensures HashesAndModule(s, 0) == Some(h + 7)
  {
    RunEndAt(s, 0, h, Hash);
    assert s[h + 1] == 'm' || s[h + 1] == 'M';
    RunEndAt(s, h, h + 1, Space);
  }

  lemma NumberAndColonOfLayout(s: string, j: nat, n: nat, g: nat)
    requires 1 <= n && j + 2 + n + g <= |s|
    requires s[j] == ' '
    requires forall i :: j + 1 <= i < j + 1 + n ==> IsDigit(s[i])
    requires s[j + 1 + n] == ':'
    requires forall i :: j + 2 + n <= i < j + 2 + n + g ==> IsSpace(s[i])
    requires j + 2 + n + g == |s| || !IsSpace(s[j + 2 + n + g])
    ensures NumberAndColon(s, j) == Some(j + 2 + n + g)
  {
    RunEndAt(s, j, j + 1, Space);
    RunEndAt(s, j + 1, j + 1 + n, Digit);
    RunEndAt(s, j + 2 + n, j + 2 + n + g, Space);
  }

  /** Where the pattern ends on a heading line "#… module <digits>:<blanks><rest>",
      "module" in any letter case and the blanks any whitespace, line breaks
      included, stated on the characters of the line. */
  lemma LayoutMatch(s: string, h: nat, n: nat, g: nat)
    requires 1 <= h && 1 <= n && h + 9 + n + g <= |s|
    requires forall i :: 0 <= i < h ==> s[i] == '#'
    requires s[h] == ' ' && ModuleAt(s, h + 1) && s[h + 7] == ' '
    requires forall i :: h + 8 <= i < h + 8 + n ==> IsDigit(s[i])
    requires s[h + 8 + n] == ':'
    requires forall i :: h + 9 + n <= i < h + 9 + n + g ==> IsSpace(s[i])
    requires h + 9 + n + g == |s| || !IsSpace(s[h + 9 + n + g])
    ensures HeadingMatch(s, 0) == Some(h + 9 + n + g)
  {
    var j := h + 7;
    HashesAndModuleOfLayout(s, h);
    NumberAndColonOfLayout(s, j, n, g);
    HeadingMatchOfStages(s, 0, j, j + 2 + n + g);
  }

  /** The whole pattern matches where its two stages, one after the other, do. */
  lemma HeadingMatchOfStages(s: string, i: nat, j: nat, e: nat)
    requires i <= j <= |s|
    requires HashesAndModule(s, i) == Some(j) && NumberAndColon(s, j) == Some(e)
    ensures HeadingMatch(s, i) == Some(e)
  {
  }

  /** The characters of "#… <word> <digits><sep><rest>", position by position. */
  lemma LayoutChars(hashes: string, word: string, digits: string, sep: string, rest: string)
    requires forall i :: 0 <= i < |hashes| ==> hashes[i] == '#'
    requires |word| == 6 && Lower(word) == "module"
    requires AllDigits(digits)
    requires |sep| >= 1 && sep[0] == ':' && forall i :: 1 <= i < |sep| ==> IsSpace(sep[i])
    ensures var s := hashes + " " + word + " " + digits + sep + rest;
      var h := |hashes|;
      var n := |digits|;
      && |s| == h + 8 + n + |sep| + |rest|
      && (forall i :: 0 <= i < h ==> s[i] == '#')
      && s[h] == ' ' && ModuleAt(s, h + 1) && s[h + 7] == ' '
      && (forall i :: h + 8 <= i < h + 8 + n ==> IsDigit(s[i]))
      && s[h + 8 + n] == ':'
      && (forall i :: h + 9 + n <= i < h + 8 + n + |sep| ==> IsSpace(s[i]))
      && s[h + 8 + n + |sep|..] == rest
  {
    var s := hashes + " " + word + " " + digits + sep + rest;
    var h := |hashes|;
    var n := |digits|;
    forall i | 0 <= i < h
      ensures s[i] == '#'
    {
      assert s[i] == hashes[i];
    }
    assert s[h + 1..h + 7] == word;
    ModuleAtIffLower(s, h + 1);
    forall i | h + 8 <= i < h + 8 + n
      ensures IsDigit(s[i])
    {
      assert s[i] == digits[i - h - 8];
    }
    forall i | h + 8 + n <= i < h + 8 + n + |sep|
      ensures s[i] == sep[i - h - 8 - n]
    {
    }
    assert s[h + 8 + n + |sep|..] == rest;
  }

  /** A match at the start of a text whose remaining line holds no newline: only
      the matched prefix changes. If the match ended on a line break, the next line
      must not start with '#', or it could hold a heading of its own. */
  lemma CleanSingleMatch(s: string, e: nat)
    requires 1 <= e <= |s|
    requires HeadingMatch(s, 0) == Some(e)
    requires '\n' !in s[e..]
    requires s[e - 1] == '\n' ==> e == |s| || s[e] != '#'
    ensures CleanHeadings(s) == "## " + s[e..]
  {
    assert HeadingAt(s, 0);
    assert CleanFrom(s, 0) == "## " + CleanFrom(s, e);
    NoHeadingAfter(s, e);
    CleanFromWithoutHeadings(s, e);
  }

  /** A one-line heading such as "### Module 3: Pricing", or "## MODULE 3: Pricing"
      in any letter case, becomes "## Pricing". */
  lemma ModuleHeadingRewritten(hashes: string, word: string, digits: string, rest: string)
    requires |hashes| >= 1 && forall i :: 0 <= i < |hashes| ==> hashes[i] == '#'
    requires |word| == 6 && Lower(word) == "module"
    requires |digits| >= 1 && AllDigits(digits)
    requires '\n' !in rest
    requires rest == "" || !IsSpace(rest[0])
    ensures CleanHeadings(hashes + " " + word + " " + digits + ": " + rest) == "## " + rest
  {
    var s := hashes + " " + word + " " + digits + ": " + rest;
    var e := |hashes| + 10 + |digits|;
    LayoutChars(hashes, word, digits, ": ", rest);
    if e < |s| {
      assert s[e] == rest[0];
    }
    LayoutRewritten(s, |hashes|, |digits|, 1);
  }

  /** `:\s*` also consumes line breaks: "## Module 1:" followed by a blank line and
      "Intro" becomes the single heading line "## Intro", pulling the next paragraph
      into the heading. */
  lemma BlankLinesJoinHeading(hashes: string, digits: string, rest: string)
    requires |hashes| >= 1 && forall i :: 0 <= i < |hashes| ==> hashes[i] == '#'
    requires |digits| >= 1 && AllDigits(digits)
    requires '\n' !in rest
    requires rest == "" || (!IsSpace(rest[0]) && rest[0] != '#')
    ensures CleanHeadings(hashes + " Module " + digits + ":\n\n" + rest) == "## " + rest
  {
    assert Lower("Module") == "module";
    assert hashes + " Module " + digits == hashes + " " + "Module" + " " + digits;
    var s := hashes + " Module " + digits + ":\n\n" + rest;
    var e := |hashes| + 11 + |digits|;
    LayoutChars(hashes, "Module", digits, ":\n\n", rest);
    if e < |s| {
      assert s[e] == rest[0];
    }
    LayoutRewritten(s, |hashes|, |digits|, 2);
  }

  /** The same rewrite, stated on the characters of the line. */
  lemma LayoutRewritten(s: string, h: nat, n: nat, g: nat)
    requires 1 <= h && 1 <= n && h + 9 + n + g <= |s|
    requires forall i :: 0 <= i < h ==> s[i] == '#'
    requires s[h] == ' ' && ModuleAt(s, h + 1) && s[h + 7] == ' '
    requires forall i :: h + 8 <= i < h + 8 + n ==> IsDigit(s[i])
    requires s[h + 8 + n] == ':'
    requires forall i :: h + 9 + n <= i < h + 9 + n + g ==> IsSpace(s[i])
    requires h + 9 + n + g == |s| || !IsSpace(s[h + 9 + n + g])
    requires '\n' !in s[h + 9 + n + g..]
    requires s[h + 8 + n + g] == '\n' ==> h + 9 + n + g == |s| || s[h + 9 + n + g] != '#'
    ensures CleanHeadings(s) == "## " + s[h + 9 + n + g..]
  {
    LayoutMatch(s, h, n, g);
    CleanSingleMatch(s, h + 9 + n + g);
  }

  /** No match can start inside the rest of a line that holds no line break, nor at
      its start when that does not begin with '#'. */
  lemma NoHeadingAfter(s: string, e: nat)
    requires 1 <= e <= |s|
    requires '\n' !in s[e..]
    requires s[e - 1] == '\n' ==> e == |s| || s[e] != '#'
    ensures forall k :: e <= k < |s| ==> !HeadingAt(s, k)
  {
    forall k | e <= k < |s|
      ensures !HeadingAt(s, k)
    {
      if k == e {
        if s[e - 1] == '\n' {
          assert RunEnd(s, e, Hash) == e;
        }
      } else {
        assert s[k - 1] == s[e..][k - 1 - e];
      }
    }
  }

  // Headings anywhere in the text: the rewrite is line-local.

  /** A run scanned inside `t` ends at the same place when `t` is the tail of `s`
      from `d` on. */
  lemma {:induction false} RunEndShift(s: string, t: string, d: nat, j: nat, c: CharClass)
    requires d <= |s| && s[d..] == t && j <= |t|
    ensures RunEnd(s, d + j, c) == d + RunEnd(t, j, c)
    decreases |t| - j
  {
    if j < |t| {
      assert s[d + j] == t[j];
      if InClass(t[j], c) {
        RunEndShift(s, t, d, j + 1, c);
      }
    }
  }

  lemma HashesAndModuleShift(s: string, t: string, d: nat, j: nat)
    requires d <= |s| && s[d..] == t && j <= |t|
    ensures var r := HashesAndModule(s, d + j);
      && (r.Some? <==> HashesAndModule(t, j).Some?)
      && (r.Some? ==> r.value == d + HashesAndModule(t, j).value)
  {
    RunEndShift(s, t, d, j, Hash);
    var hashesEnd := RunEnd(t, j, Hash);
    RunEndShift(s, t, d, hashesEnd, Space);
    var m := RunEnd(t, hashesEnd, Space);
    if m + 6 <= |t| {
      ModuleAtShift(s, t, d, m);
    }
  }

  lemma ModuleAtShift(s: string, t: string, d: nat, m: nat)
    requires d <= |s| && s[d..] == t && m + 6 <= |t|
    ensures ModuleAt(s, d + m) <==> ModuleAt(t, m)
  {
    assert s[d + m] == t[m] && s[d + m + 1] == t[m + 1] && s[d + m + 2] == t[m + 2];
    assert s[d + m + 3] == t[m + 3] && s[d + m + 4] == t[m + 4] && s[d + m + 5] == t[m + 5];
  }

  lemma NumberAndColonShift(s: string, t: string, d: nat, j: nat)
    requires d <= |s| && s[d..] == t && j <= |t|
    ensures var r := NumberAndColon(s, d + j);
      && (r.Some? <==> NumberAndColon(t, j).Some?)
      && (r.Some? ==> r.value == d + NumberAndColon(t, j).value)
  {
    RunEndShift(s, t, d, j, Space);
    var e := RunEnd(t, j, Space);
    RunEndShift(s, t, d, e, Digit);
    var colon := RunEnd(t, e, Digit);
    if colon < |t| {
      assert s[d + colon] == t[colon];
      RunEndShift(s, t, d, colon + 1, Space);
    }
  }

  /** The pattern matches inside `t` exactly where it matches in `s`, when `t`
      starts a line of `s`. */
  lemma HeadingAtShift(s: string, t: string, d: nat, j: nat)
    requires d <= |s| && s[d..] == t && j <= |t|
    requires d == 0 || s[d - 1] == '\n'
    ensures HeadingAt(s, d + j) <==> HeadingAt(t, j)
    ensures HeadingAt(t, j) ==> HeadingMatch(s, d + j).value == d + HeadingMatch(t, j).value
  {
    HashesAndModuleShift(s, t, d, j);
    if HashesAndModule(t, j).Some? {
      NumberAndColonShift(s, t, d, HashesAndModule(t, j).value);
    }
    if j > 0 {
      assert s[d + j - 1] == t[j - 1];
    }
  }

  lemma CleanFromAtHeading(s: string, i: nat)
    requires HeadingAt(s, i)
    ensures CleanFrom(s, i) == "## " + CleanFrom(s, HeadingMatch(s, i).value)
  {
  }

  lemma CleanFromAtOther(s: string, i: nat)
    requires i < |s| && !HeadingAt(s, i)
    ensures CleanFrom(s, i) == [s[i]] + CleanFrom(s, i + 1)
  {
  }

  /** `t` is the tail of `s` from `d` on, and starts a line of `s`. */
  predicate LineTail(s: string, t: string, d: nat) {
    d <= |s| && s[d..] == t && (d == 0 || s[d - 1] == '\n')
  }

  /** Cleaning from `i` emits `out` and resumes at `e`. */
  predicate Emits(s: string, i: nat, out: string, e: nat)
    requires i <= e <= |s|
  {
    CleanFrom(s, i) == out + CleanFrom(s, e)
  }

  /** A match at `i` that ends at `e` is replaced by "## " and the scan resumes at `e`. */
  lemma CleanFromAtMatch(s: string, i: nat, e: nat)
    requires HeadingAt(s, i) && HeadingMatch(s, i).value == e
    ensures i < e <= |s| && Emits(s, i, "## ", e)
  {
    CleanFromAtHeading(s, i);
  }

  /** A match in `t` is a match in `s`, shifted by `d`. */
  lemma MatchShift(s: string, t: string, d: nat, j: nat, e: nat)
    requires LineTail(s, t, d) && j < |t|
    requires HeadingAt(t, j) && HeadingMatch(t, j).value == e
    ensures HeadingAt(s, d + j) && HeadingMatch(s, d + j).value == d + e
  {
    HeadingAtShift(s, t, d, j);
  }

  /** Where a match starts in `t`, both texts emit "## " and resume at its end. */
  lemma ShiftAtHeading(s: string, t: string, d: nat, j: nat) returns (e: nat, out: string)
    requires LineTail(s, t, d) && j < |t|
    requires HeadingAt(t, j)
    ensures j < e <= |t|
    ensures Emits(s, d + j, out, d + e) && Emits(t, j, out, e)
  {
    e, out := HeadingMatch(t, j).value, "## ";
    MatchShift(s, t, d, j, e);
    CleanFromAtMatch(s, d + j, d + e);
    CleanFromAtMatch(t, j, e);
  }

  /** Elsewhere both texts copy the character and resume after it. */
  lemma ShiftAtOther(s: string, t: string, d: nat, j: nat) returns (e: nat, out: string)
    requires LineTail(s, t, d) && j < |t|
    requires !HeadingAt(t, j)
    ensures j < e <= |t|
    ensures Emits(s, d + j, out, d + e) && Emits(t, j, out, e)
  {
    e, out := j + 1, [t[j]];
    HeadingAtShift(s, t, d, j);
    CleanFromAtOther(s, d + j);
    CleanFromAtOther(t, j);
    assert s[d + j] == t[j];
  }

  /** Cleaning `s` from inside its tail `t` is cleaning `t`, when `t` starts a line. */
  lemma {:induction false} CleanFromShift(s: string, t: string, d: nat, j: nat)
    requires LineTail(s, t, d) && j <= |t|
    ensures CleanFrom(s, d + j) == CleanFrom(t, j)
    decreases |t| - j
  {
    if j < |t| {
      var e, out;
      if HeadingAt(t, j) {
        e, out := ShiftAtHeading(s, t, d, j);
      } else {
        e, out := ShiftAtOther(s, t, d, j);
      }
      CleanFromShift(s, t, d, e);
    }
  }

  /** A stretch without a heading start is copied as it is. */
  lemma {:induction false} CleanFromSkip(s: string, i: nat, j: nat)
    requires i <= j <= |s|
    requires forall k :: i <= k < j ==> !HeadingAt(s, k)
    ensures CleanFrom(s, i) == s[i..j] + CleanFrom(s, j)
    decreases j - i
  {
    if i < j {
      CleanFromAtOther(s, i);
      CleanFromSkip(s, i + 1, j);
      assert s[i..j] == [s[i]] + s[i + 1..j];
      AppendAssoc([s[i]], s[i + 1..j], CleanFrom(s, j));
    }
  }

  /** The rewrite is local to lines: complete lines in front of `t` on which no
      match starts are kept as they are, and `t` is cleaned on its own. A match may
      not start in `pre` even when it would run into `t`, as `\s*` crosses line
      breaks. */
  lemma CleanHeadingsLocal(pre: string, t: string)
    requires pre == "" || pre[|pre| - 1] == '\n'
    requires forall k :: 0 <= k < |pre| ==> !HeadingAt(pre + t, k)
    ensures CleanHeadings(pre + t) == pre + CleanHeadings(t)
  {
    var s := pre + t;
    CleanFromSkip(s, 0, |pre|);
    assert s[0..|pre|] == pre;
    assert s[|pre|..] == t;
    assert LineTail(s, t, |pre|);
    CleanFromShift(s, t, |pre|, 0);
  }

  /** No match starts inside a line before its end, past its first character. */
  lemma NoHeadingInsideLine(s: string, e: nat, f: nat)
    requires 0 < e <= f <= |s|
    requires s[e - 1] != '\n'
    requires forall k :: e <= k < f - 1 ==> s[k] != '\n'
    ensures forall k :: e <= k < f ==> !HeadingAt(s, k)
  {
    forall k | e <= k < f
      ensures !HeadingAt(s, k)
    {
      assert s[k - 1] != '\n';
    }
  }

  /** The tail "<title>\n<t>" from `e` on, split at its line break. */
  lemma TitleLineSplit(s: string, e: nat, title: string, t: string)
    requires e <= |s| && s[e..] == title + "\n" + t && '\n' !in title
    ensures e + |title| + 1 <= |s|
    ensures s[e..e + |title| + 1] == title + "\n"
    ensures s[e + |title| + 1..] == t
    ensures s[e + |title|] == '\n'
    ensures forall k :: e <= k < e + |title| ==> s[k] != '\n'
  {
    var f := e + |title| + 1;
    assert s[e..f] == s[e..][..|title| + 1];
    assert s[f..] == s[e..][|title| + 1..];
    assert s[e + |title|] == s[e..][|title|];
    forall k | e <= k < e + |title|
      ensures s[k] != '\n'
    {
      assert s[k] == s[e..][k - e] == title[k - e];
    }
  }

  /** A line from `e` to its line break at `f - 1`, on which no match can start
      as it does not start at `e`, is copied as it is. */
  lemma LineCopied(s: string, e: nat, f: nat)
    requires 0 < e < f <= |s| && s[e - 1] != '\n'
    requires forall k :: e <= k < f - 1 ==> s[k] != '\n'
    ensures CleanFrom(s, e) == s[e..f] + CleanFrom(s, f)
  {
    NoHeadingInsideLine(s, e, f);
    CleanFromSkip(s, e, f);
  }

  /** Cleaning from the start of a line on is cleaning the rest as a text of its own. */
  lemma FromLineStart(s: string, f: nat, t: string)
    requires 0 < f <= |s| && s[f - 1] == '\n' && s[f..] == t
    ensures CleanFrom(s, f) == CleanHeadings(t)
  {
    assert LineTail(s, t, f);
    CleanFromShift(s, t, f, 0);
  }

  /** A line from `e` to its line break at `f - 1` is copied as it is, and the text
      after it is cleaned as a text of its own. */
  lemma LineThenTail(s: string, e: nat, f: nat, t: string)
    requires 0 < e < f <= |s| && s[e - 1] != '\n' && s[f - 1] == '\n'
    requires forall k :: e <= k < f - 1 ==> s[k] != '\n'
    requires s[f..] == t
    ensures CleanFrom(s, e) == s[e..f] + CleanHeadings(t)
  {
    LineCopied(s, e, f);
    FromLineStart(s, f, t);
  }

  /** The rest of a line after a match, up to and including its line break, is
      copied as it is, and the text after it is cleaned as a text of its own. */
  lemma RestOfLineThenTail(s: string, e: nat, title: string, t: string)
    requires 0 < e <= |s| && s[e - 1] != '\n' && '\n' !in title
    requires s[e..] == title + "\n" + t
    ensures CleanFrom(s, e) == title + "\n" + CleanHeadings(t)
  {
    TitleLineSplit(s, e, title, t);
    LineThenTail(s, e, e + |title| + 1, t);
  }

  /** A match at the start of `s` ending at `e`, followed by the rest of its line
      and a line break: the line is rewritten and the text after it is cleaned as
      a text of its own. */
  lemma HeadingLineAtStart(s: string, e: nat, title: string, t: string)
    requires HeadingAt(s, 0) && HeadingMatch(s, 0).value == e
    requires s[e - 1] != '\n' && '\n' !in title
    requires s[e..] == title + "\n" + t
    ensures CleanHeadings(s) == "## " + (title + "\n" + CleanHeadings(t))
  {
    CleanFromAtHeading(s, 0);
    RestOfLineThenTail(s, e, title, t);
  }

  /** A heading line that ends in a line break is rewritten on its own, and the
      text after it is cleaned as a text of its own: several headings are each
      rewritten in turn. */
  lemma HeadingLineThenRest(hashes: string, word: string, digits: string, title: string, t: string)
    requires |hashes| >= 1 && forall i :: 0 <= i < |hashes| ==> hashes[i] == '#'
    requires |word| == 6 && Lower(word) == "module"
    requires |digits| >= 1 && AllDigits(digits)
    requires |title| >= 1 && !IsSpace(title[0]) && '\n' !in title
    ensures CleanHeadings(hashes + " " + word + " " + digits + ": " + (title + "\n" + t))
         == "## " + (title + "\n" + CleanHeadings(t))
  {
    var rest := title + "\n" + t;
    var s := hashes + " " + word + " " + digits + ": " + rest;
    var e := |hashes| + 10 + |digits|;
    LayoutChars(hashes, word, digits, ": ", rest);
    assert s[e] == rest[0] == title[0];
    LayoutMatch(s, |hashes|, |digits|, 1);
    HeadingLineAtStart(s, e, title, t);
  }

  /** Two heading lines in a row are both rewritten. */
  lemma TwoHeadingLines(hashes: string, word: string, digits: string, title: string,
                        hashes2: string, word2: string, digits2: string, title2: string)
    requires |hashes| >= 1 && forall i :: 0 <= i < |hashes| ==> hashes[i] == '#'
    requires |hashes2| >= 1 && forall i :: 0 <= i < |hashes2| ==> hashes2[i] == '#'
    requires |word| == 6 && Lower(word) == "module" && |word2| == 6 && Lower(word2) == "module"
    requires |digits| >= 1 && AllDigits(digits) && |digits2| >= 1 && AllDigits(digits2)
    requires |title| >= 1 && !IsSpace(title[0]) && '\n' !in title
    requires |title2| >= 1 && !IsSpace(title2[0]) && '\n' !in title2
    ensures CleanHeadings(hashes + " " + word + " " + digits + ": " + (title + "\n" +
              (hashes2 + " " + word2 + " " + digits2 + ": " + title2)))
         == "## " + (title + "\n" + ("## " + title2))
  {
    HeadingLineThenRest(hashes, word, digits, title, hashes2 + " " + word2 + " " + digits2 + ": " + title2);
    ModuleHeadingRewritten(hashes2, word2, digits2, title2);
  }

  /** Whole lines without a '#' in front of a text are kept as they are, and the
      text is cleaned as if it stood alone: a heading on a later line is rewritten. */
  lemma PlainLinesKept(pre: string, t: string)
    requires pre == "" || pre[|pre| - 1] == '\n'
    requires '#' !in pre
    ensures CleanHeadings(pre + t) == pre + CleanHeadings(t)
  {
    var s := pre + t;
    forall k | 0 <= k < |pre|
      ensures !HeadingAt(s, k)
    {
      assert s[k] == pre[k];
      RunEndAt(s, k, k, Hash);
    }
    CleanHeadingsLocal(pre, t);
  }

  // ---------------------------------------------------------------------------
  // Command line

  /** The values `main` reads from its arguments; argparse's defaults are
      `--company_name "WIF Marketing"`, `--year 2025` and `--use_ai "true"`. */
  datatype CliArgs = CliArgs(
    topic: string,
    audience: string,
    primaryKeyword: string,
    authorName: string,
    authorTitle: string,
    companyName: string,
    year: int,
    useAi: string)

  const TRUE_WORDS: seq<string> := ["true", "1", "yes", "y"]

  /** `str(args.use_ai).lower() in ("true", "1", "yes", "y")`. */
  function UseAi(arg: string): (on: bool)
    ensures on <==> Lower(arg) in TRUE_WORDS
    ensures on ==> 1 <= |arg| <= 4
  {
    Lower(arg) in TRUE_WORDS
  }

  /** Letter case never matters, the default turns AI on, and the usual negatives
      turn it off. */
  lemma UseAiCases(arg: string)
    ensures UseAi(Lower(arg)) == UseAi(arg)
    ensures UseAi("true") && UseAi("TRUE") && UseAi("Yes") && UseAi("Y") && UseAi("1")
    ensures !UseAi("false") && !UseAi("no") && !UseAi("0") && !UseAi("") && !UseAi("on")
  {
    LowerIdempotent(arg);
    assert Lower("TRUE") == "true";
    assert Lower("Yes") == "yes";
    assert Lower("Y") == "y";
    assert Lower("1") == "1";
    assert Lower("true") == "true";
    assert Lower("on") == "on";
    assert Lower("false") == "false";
    assert Lower("no") == "no";
    assert Lower("0") == "0";
    assert Lower("") == "";
  }

  // ---------------------------------------------------------------------------
  // Body, metadata and Markdown file

  const PLACEHOLDER_LEAD := "> TODO: Write blog content for topic '"
  const PLACEHOLDER_TAIL := "'.\n\n---\n\n"

  /** The body written when AI is off: a to-do line naming the topic, a rule, then
      both parts of the structure template. */
  function PlaceholderBody(topic: string, parts: BlogParts): (body: string)
    ensures StartsWith(body, PLACEHOLDER_LEAD)
    ensures OccursAt(body, topic, |PLACEHOLDER_LEAD|)
    ensures Contains(body, topic) && Contains(body, parts.part1) && Contains(body, parts.part2)
  {
    var body := PLACEHOLDER_LEAD + topic + PLACEHOLDER_TAIL + parts.part1 + "\n\n" + parts.part2;
    var i1 := |PLACEHOLDER_LEAD| + |topic| + |PLACEHOLDER_TAIL|;
    var i2 := i1 + |parts.part1| + 2;
    assert body[|PLACEHOLDER_LEAD|..|PLACEHOLDER_LEAD| + |topic|] == topic;
    assert OccursAt(body, topic, |PLACEHOLDER_LEAD|);
    assert body[i1..i1 + |parts.part1|] == parts.part1;
    assert body[i2..] == parts.part2;
    assert OccursAt(body, parts.part1, i1);
    assert OccursAt(body, parts.part2, i2);
    body
  }

  const GUIDE_INFIX := " \U{2014} Complete Guide for "

  /** `f"{topic} — Complete Guide for {year}"`; the year reads back as the number. */
  function GuideTitle(topic: string, year: int): (title: string)
    ensures StartsWith(title, topic)
    ensures |title| > |topic| + |GUIDE_INFIX|
    ensures title[|topic|..|topic| + |GUIDE_INFIX|] == GUIDE_INFIX
    ensures ParseInt(title[|topic| + |GUIDE_INFIX|..]) == Some(year)
  {
    GuideTitleParts(topic, IntToDecimal(year));
    ParseIntOfDecimal(year);
    topic + GUIDE_INFIX + IntToDecimal(year)
  }

  lemma GuideTitleParts(topic: string, digits: string)
    ensures var t := topic + GUIDE_INFIX + digits;
      && t[..|topic|] == topic
      && t[|topic|..|topic| + |GUIDE_INFIX|] == GUIDE_INFIX
      && t[|topic| + |GUIDE_INFIX|..] == digits
  {
  }

  const META_DESCRIPTION_MAX: nat := 155

  /** The order of the keys in the dictionary literal of lines 96-111; later
      assignments to existing keys do not move them. */
  const GENERATOR_KEY_ORDER: seq<string> := [
    "title", "author", "date", "primary_keyword", "audience", "company", "slug",
    "reading_time_min", "keywords", "meta_description", "og_image", "og_title",
    "og_description", "canonical_url"]

  /** The metadata `main` assembles before writing the Markdown file. */
  function GeneratorMeta(args: CliArgs, body: string, today: string, libs: Libraries): (m: PostMeta)
    ensures m.title == GuideTitle(args.topic, args.year)
    ensures m.keywords == [args.primaryKeyword]
    ensures |m.metaDescription| <= META_DESCRIPTION_MAX
    ensures StartsWith(Strip(body), m.metaDescription)
    ensures |m.metaDescription| == if |Strip(body)| < META_DESCRIPTION_MAX then |Strip(body)| else META_DESCRIPTION_MAX
    ensures m.slug == SeoSlug(m.title, libs.slugify) && |m.slug| <= SLUG_MAX
    ensures m.readingTimeMin == EstReadingTime(body) && m.readingTimeMin >= 1
    ensures m.author == Author(args.authorName, args.authorTitle)
    ensures m.date == today && m.company == args.companyName && m.audience == args.audience
    ensures m.primaryKeyword == args.primaryKeyword
    ensures m.ogTitle == Some("") && m.ogDescription == Some("") && m.canonicalUrl == Some("")
    ensures m.ogImage == ""
    ensures m.keyOrder == GENERATOR_KEY_ORDER
  {
    var title := GuideTitle(args.topic, args.year);
    PostMeta(
      title := title,
      author := Author(args.authorName, args.authorTitle),
      date := today,
      primaryKeyword := args.primaryKeyword,
      audience := args.audience,
      company := args.companyName,
      slug := SeoSlug(title, libs.slugify),
      readingTimeMin := EstReadingTime(body),
      canonicalUrl := Some(""),
      keywords := [args.primaryKeyword],
      metaDescription := Take(Strip(body), META_DESCRIPTION_MAX),
      ogImage := "",
      ogTitle := Some(""),
      ogDescription := Some(""),
      keyOrder := GENERATOR_KEY_ORDER)
  }

  /** `render_blog`: front matter, a blank line, the stripped body, a final newline. */
  function RenderBlog(meta: PostMeta, body: string, libs: Libraries): (md: string)
    ensures StartsWith(md, FrontMatter(meta, libs))
    ensures EndsWith(md, "\n" + Strip(body) + "\n")
    ensures |md| == |FrontMatter(meta, libs)| + |Strip(body)| + 2
  {
    var fm := FrontMatter(meta, libs);
    var md := fm + "\n" + Strip(body) + "\n";
    assert md[..|fm|] == fm;
    assert md[|md| - |"\n" + Strip(body) + "\n"|..] == "\n" + Strip(body) + "\n";
    md
  }

  // ---------------------------------------------------------------------------
  // HTML metadata defaults

  function CanonicalFor(slug: string): string {
    "https://yourdomain.com/" + slug + ".html"
  }

  /** `dict.setdefault`: only an absent key takes the default. */
  function SetDefault(value: Option<string>, default: string): (r: Option<string>)
    ensures value.Some? ==> r == value
    ensures value.None? ==> r == Some(default)
  {
    if value.Some? then value else Some(default)
  }

  /** Lines 130-132 of `main` as written: three `setdefault` calls. */
  function HtmlMetaAsWritten(m: PostMeta): (h: PostMeta)
    ensures h.ogTitle == Some(m.ogTitle.GetOr(m.title))
    ensures h.ogDescription == Some(m.ogDescription.GetOr(m.metaDescription))
    ensures h.canonicalUrl == Some(m.canonicalUrl.GetOr(CanonicalFor(m.slug)))
    ensures h.(ogTitle := m.ogTitle, ogDescription := m.ogDescription, canonicalUrl := m.canonicalUrl) == m
  {
    m.(ogTitle := SetDefault(m.ogTitle, m.title),
       ogDescription := SetDefault(m.ogDescription, m.metaDescription),
       canonicalUrl := SetDefault(m.canonicalUrl, CanonicalFor(m.slug)))
  }

  /** As written, the defaults never apply: `main` has already stored "" under all
      three keys, so the page gets an empty Open Graph title and description and an
      empty canonical URL, also in the JSON-LD, whatever the title. */
  lemma HtmlDefaultsNeverApply(args: CliArgs, body: string, today: string, md: string, libs: Libraries)
    ensures var m := GeneratorMeta(args, body, today, libs);
      && HtmlMetaAsWritten(m) == m
      && RenderHtml(HtmlMetaAsWritten(m), md, [], libs).ogTitle == ""
      && RenderHtml(HtmlMetaAsWritten(m), md, [], libs).ogDescription == ""
      && RenderHtml(HtmlMetaAsWritten(m), md, [], libs).canonicalUrl == ""
      && RenderHtml(HtmlMetaAsWritten(m), md, [], libs).jsonLd.mainEntityOfPage == ""
  {
  }

  /** Corrected default: a missing OR empty value takes the default. */
  function FillDefault(value: Option<string>, default: string): (r: Option<string>)
    ensures value.GetOr("") != "" ==> r == value
    ensures value.GetOr("") == "" ==> r == Some(default)
  {
    if value.GetOr("") == "" then Some(default) else value
  }

  /** The metadata the page is rendered from, with the defaults that lines 130-132
      evidently intend. */
  function HtmlMeta(m: PostMeta): (h: PostMeta)
    ensures h.ogTitle == Some(if m.ogTitle.GetOr("") == "" then m.title else m.ogTitle.value)
    ensures h.ogDescription == Some(if m.ogDescription.GetOr("") == "" then m.metaDescription else m.ogDescription.value)
    ensures h.canonicalUrl == Some(if m.canonicalUrl.GetOr("") == "" then CanonicalFor(m.slug) else m.canonicalUrl.value)
    ensures h.(ogTitle := m.ogTitle, ogDescription := m.ogDescription, canonicalUrl := m.canonicalUrl) == m
  {
    m.(ogTitle := FillDefault(m.ogTitle, m.title),
       ogDescription := FillDefault(m.ogDescription, m.metaDescription),
       canonicalUrl := FillDefault(m.canonicalUrl, CanonicalFor(m.slug)))
  }

  /** With the corrected defaults the page of a generated post carries its title, its
      description and its own canonical URL. */
  lemma GeneratedPageHasDefaults(args: CliArgs, body: string, today: string, md: string, libs: Libraries)
    ensures var m := GeneratorMeta(args, body, today, libs);
      var ctx := RenderHtml(HtmlMeta(m), md, [], libs);
      && ctx.ogTitle == m.title
      && ctx.ogDescription == m.metaDescription
      && ctx.canonicalUrl == CanonicalFor(m.slug)
      && ctx.jsonLd.mainEntityOfPage == CanonicalFor(m.slug)
  {
  }

  // ---------------------------------------------------------------------------
  // One run of `main`

  datatype SingleRun = SingleRun(
    meta: PostMeta,
    body: string,
    mdPath: string,
    mdContent: string,
    htmlPath: string,
    page: PageContext)

  /** `cfg["paths"].get("output_dir", "output")`. */
  function OutputDir(paths: map<string, string>): (d: string)
    ensures "output_dir" in paths ==> d == paths["output_dir"]
    ensures "output_dir" !in paths ==> d == "output"
  {
    if "output_dir" in paths then paths["output_dir"] else "output"
  }

  /** `main` once the arguments are parsed, the template file is read and the
      completion call has answered (`reply`, consulted only when AI is on). Nothing
      is written when the configuration lacks the template path or the call fails.
      The page is rendered as the code stands, with the no-op defaults of lines
      130-132, so its Open Graph fields and canonical URL are empty. */
  function GenerateSingle(args: CliArgs, paths: map<string, string>, structureText: string,
                          today: string, reply: Result<string, string>, libs: Libraries): (r: Result<SingleRun, RunError>)
    ensures r.Failure? <==> "structure_path" !in paths || (UseAi(args.useAi) && reply.Failure?)
    ensures r.Success? && UseAi(args.useAi) ==> r.value.body == reply.value
    ensures r.Success? && !UseAi(args.useAi) ==> Contains(r.value.body, args.topic)
    ensures r.Success? && !UseAi(args.useAi) ==> r.value.body == PlaceholderBody(args.topic, LoadBlogParts(structureText))
    ensures r.Success? ==> r.value.meta == GeneratorMeta(args, r.value.body, today, libs)
    ensures r.Success? ==> r.value.mdContent == RenderBlog(r.value.meta, r.value.body, libs)
    ensures r.Success? ==> r.value.page.content == MdToHtml(CleanHeadings(r.value.body), libs)
    ensures r.Success? ==> r.value.page.title == r.value.meta.title
    ensures r.Success? ==> r.value.page.ogTitle == "" && r.value.page.ogDescription == ""
    ensures r.Success? ==> r.value.page.canonicalUrl == "" && r.value.page.jsonLd.mainEntityOfPage == ""
    ensures r.Success? ==> r.value.page.keywords == args.primaryKeyword
    ensures r.Success? ==> r.value.page.internalLinks == []
    ensures r.Success? ==> r.value.mdPath == OutputDir(paths) + "/" + r.value.meta.slug + ".md"
    ensures r.Success? ==> r.value.htmlPath == OutputDir(paths) + "/" + r.value.meta.slug + ".html"
  {
    if "structure_path" !in paths then Failure(MissingConfigKey("paths.structure_path"))
    else
      var parts := LoadBlogParts(structureText);
      var useAi := UseAi(args.useAi);
      if useAi && reply.Failure? then Failure(CompletionFailed(reply.error))
      else
        var body := if useAi then reply.value else PlaceholderBody(args.topic, parts);
        var meta := GeneratorMeta(args, body, today, libs);
        var stem := OutputDir(paths) + "/" + meta.slug;
        Success(SingleRun(
          meta := meta,
          body := body,
          mdPath := stem + ".md",
          mdContent := RenderBlog(meta, body, libs),
          htmlPath := stem + ".html",
          page := RenderHtml(HtmlMetaAsWritten(meta), CleanHeadings(body), [], libs)))
  }

  /** The page of a run differs from the page the defaults were meant to give only
      in its Open Graph title and description and its canonical URL, which are empty
      where the corrected page has the title, the description and the post's URL. */
  lemma SinglePageLacksDefaults(args: CliArgs, paths: map<string, string>, structureText: string,
                                today: string, reply: Result<string, string>, libs: Libraries)
    requires "structure_path" in paths
    requires UseAi(args.useAi) ==> reply.Success?
    ensures var run := GenerateSingle(args, paths, structureText, today, reply, libs).value;
      var intended := RenderHtml(HtmlMeta(run.meta), CleanHeadings(run.body), [], libs);
      && intended.ogTitle == run.meta.title != run.page.ogTitle
      && intended.ogDescription == run.meta.metaDescription
      && intended.canonicalUrl == CanonicalFor(run.meta.slug) != run.page.canonicalUrl
      && intended.(ogTitle := "", ogDescription := "", canonicalUrl := "", jsonLd := run.page.jsonLd) == run.page
  {
    var run := GenerateSingle(args, paths, structureText, today, reply, libs).value;
    assert |run.meta.title| > 0 by {
      assert |run.meta.title| >= |GUIDE_INFIX|;
    }
    assert run.page.ogTitle == "";
  }
}

=== FILE: text.dfy ===
/** The handful of Python `str` operations the generator relies on, written out over
    `seq<char>`: whitespace and word-character classes, `lower`, `startswith`, `find`,
    non-overlapping literal `findall`, `strip`, `split`, `join`, `int()` and `str()` on integers. */
module Text {
  import opened Wrappers

  /** Python's `str.isspace()`; `\s` in a `str` regular expression matches the same set. */
  predicate IsSpace(c: char) {
    || c == ' '
    || ('\t' <= c <= '\r')
    || ('\U{1C}' <= c <= '\U{1F}')
    || c == '\U{85}' || c == '\U{A0}' || c == '\U{1680}'
    || ('\U{2000}' <= c <= '\U{200A}')
    || c == '\U{2028}' || c == '\U{2029}' || c == '\U{202F}' || c == '\U{205F}' || c == '\U{3000}'
  }

  predicate IsDigit(c: char) {
    '0' <= c <= '9'
  }

  /** `\w`, restricted to ASCII: letters, digits and underscore. */
  predicate IsWordChar(c: char) {
    ('a' <= c <= 'z') || ('A' <= c <= 'Z') || IsDigit(c) || c == '_'
  }

  /** `str.lower()` on ASCII letters; every other character is kept. */
  function LowerChar(c: char): char {
    if 'A' <= c <= 'Z' then (c as int + 32) as char else c
  }

  function Lower(s: string): (r: string)
    ensures |r| == |s|
    ensures forall i :: 0 <= i < |s| ==> r[i] == LowerChar(s[i])
  {
    seq(|s|, i requires 0 <= i < |s| => LowerChar(s[i]))
  }

  lemma LowerIdempotent(s: string)
    ensures Lower(Lower(s)) == Lower(s)
  {
  }

  predicate StartsWith(s: string, prefix: string) {
    |prefix| <= |s| && s[..|prefix|] == prefix
  }

  predicate EndsWith(s: string, suffix: string) {
    |suffix| <= |s| && s[|s| - |suffix|..] == suffix
  }

  /** Python's `s[:n]` for a non-negative `n`. */
  function Take(s: string, n: nat): (r: string)
    ensures |r| <= n
    ensures |r| == if |s| < n then |s| else n
    ensures StartsWith(s, r)
  {
    if |s| <= n then s else s[..n]
  }

  // ---------------------------------------------------------------------------
  // Substring search

  /** `p` occurs in `t` starting at index `i`. */
  predicate OccursAt(t: string, p: string, i: int) {
    0 <= i && i + |p| <= |t| && t[i..i + |p|] == p
  }

  ghost predicate Contains(t: string, p: string) {
    exists i :: 0 <= i <= |t| - |p| && OccursAt(t, p, i)
  }

  lemma OccursShift(t: string, p: string, i: int)
    requires |t| > 0
    requires 0 <= i
    ensures OccursAt(t[1..], p, i) <==> OccursAt(t, p, i + 1)
  {
    if 0 <= i && i + |p| <= |t| - 1 {
      assert t[1..][i..i + |p|] == t[i + 1..i + 1 + |p|];
    }
  }

  /** `t.find(p)`: the leftmost occurrence of `p` in `t`, if any. */
  function Find(t: string, p: string): (r: Option<nat>)
    ensures r.Some? ==> OccursAt(t, p, r.value)
    ensures r.Some? ==> forall j :: 0 <= j < r.value ==> !OccursAt(t, p, j)
    ensures r.None? ==> forall j :: !OccursAt(t, p, j)
    decreases |t|
  {
    if |t| < |p| then None
    else if t[..|p|] == p then Some(0)
    else
      var rest := Find(t[1..], p);
      assert !OccursAt(t, p, 0);
      assert forall j :: 1 <= j ==> (OccursAt(t, p, j) <==> OccursAt(t[1..], p, j - 1)) by {
        forall j | 1 <= j ensures OccursAt(t, p, j) <==> OccursAt(t[1..], p, j - 1) {
          OccursShift(t, p, j - 1);
        }
      }
      match rest
      case Some(i) => Some(i + 1)
      case None => None
  }

  lemma FindNoneIffAbsent(t: string, p: string)
    ensures Find(t, p).None? <==> !Contains(t, p)
  {
    if Find(t, p).Some? {
      assert OccursAt(t, p, Find(t, p).value);
    }
  }

  /** No occurrence of `p` starts at or after `lo` and before `hi`. */
  predicate NoOccurrenceIn(t: string, p: string, lo: int, hi: int) {
    forall j :: lo <= j < hi ==> !OccursAt(t, p, j)
  }

  /** `ps` are the matches a left-to-right scan from `i` finds: the first is the
      leftmost occurrence at or after `i`, the others are what the scan finds from
      the end of the first, and with no occurrence left the list is empty. */
  predicate GreedyScan(t: string, p: string, i: nat, ps: seq<nat>)
    decreases |ps|
  {
    if |ps| == 0 then NoOccurrenceIn(t, p, i, |t| + 1)
    else
      && i <= ps[0]
      && NoOccurrenceIn(t, p, i, ps[0])
      && OccursAt(t, p, ps[0])
      && GreedyScan(t, p, ps[0] + |p|, ps[1..])
  }

  /** The start of every match a scan from `i` finds. */
  function MatchesFrom(t: string, p: string, i: nat): seq<nat>
    requires |p| > 0 && i <= |t|
    decreases |t| - i
  {
    if i + |p| > |t| then []
    else if OccursAt(t, p, i) then [i] + MatchesFrom(t, p, i + |p|)
    else MatchesFrom(t, p, i + 1)
  }

  function Matches(t: string, p: string): seq<nat>
    requires |p| > 0
  {
    MatchesFrom(t, p, 0)
  }

  lemma {:induction false} MatchesFromAreGreedy(t: string, p: string, i: nat)
    requires |p| > 0 && i <= |t|
    ensures GreedyScan(t, p, i, MatchesFrom(t, p, i))
    decreases |t| - i
  {
    if i + |p| > |t| {
      assert NoOccurrenceIn(t, p, i, |t| + 1);
    } else if OccursAt(t, p, i) {
      MatchesFromAreGreedy(t, p, i + |p|);
      ScanAfterMatch(t, p, i, MatchesFrom(t, p, i + |p|));
    } else {
      MatchesFromAreGreedy(t, p, i + 1);
      ScanPastMiss(t, p, i, MatchesFrom(t, p, i + 1));
    }
  }

  lemma ScanAfterMatch(t: string, p: string, i: nat, rest: seq<nat>)
    requires OccursAt(t, p, i) && GreedyScan(t, p, i + |p|, rest)
    ensures GreedyScan(t, p, i, [i] + rest)
  {
    assert ([i] + rest)[1..] == rest;
  }

  lemma ScanPastMiss(t: string, p: string, i: nat, ps: seq<nat>)
    requires !OccursAt(t, p, i) && GreedyScan(t, p, i + 1, ps)
    ensures GreedyScan(t, p, i, ps)
  {
  }

  /** A scan has only one outcome: two lists of matches from the same place agree. */
  lemma {:induction false} GreedyScanUnique(t: string, p: string, i: nat, ps: seq<nat>, qs: seq<nat>)
    requires GreedyScan(t, p, i, ps) && GreedyScan(t, p, i, qs)
    ensures ps == qs
    decreases |ps|
  {
    ScanFirst(t, p, i, ps, qs);
    if |ps| > 0 {
      GreedyScanUnique(t, p, ps[0] + |p|, ps[1..], qs[1..]);
      assert ps == [ps[0]] + ps[1..];
      assert qs == [qs[0]] + qs[1..];
    }
  }

  /** Two scans from the same place both stop at once or find the same first match. */
  lemma ScanFirst(t: string, p: string, i: nat, ps: seq<nat>, qs: seq<nat>)
    requires GreedyScan(t, p, i, ps) && GreedyScan(t, p, i, qs)
    ensures |ps| == 0 <==> |qs| == 0
    ensures |ps| > 0 ==> ps[0] == qs[0]
  {
  }

  /** The matches are exactly what a left-to-right scan finds. */
  lemma MatchesAreGreedy(t: string, p: string)
    requires |p| > 0
    ensures GreedyScan(t, p, 0, Matches(t, p))
    ensures forall ps :: GreedyScan(t, p, 0, ps) ==> ps == Matches(t, p)
  {
    MatchesFromAreGreedy(t, p, 0);
    forall ps | GreedyScan(t, p, 0, ps)
      ensures ps == Matches(t, p)
    {
      GreedyScanUnique(t, p, 0, ps, Matches(t, p));
    }
  }

  /** Matches do not overlap, so they fit side by side in what is left of the text. */
  lemma {:induction false} GreedyScanFits(t: string, p: string, i: nat, ps: seq<nat>)
    requires GreedyScan(t, p, i, ps)
    ensures |ps| > 0 ==> i + |ps| * |p| <= |t|
    decreases |ps|
  {
    if |ps| > 0 {
      GreedyScanFits(t, p, ps[0] + |p|, ps[1..]);
      assert |ps| * |p| == |p| + |ps[1..]| * |p|;
    }
  }

  /** `len(re.findall(re.escape(p), t))`: the number of occurrences of a literal
      that a left-to-right scan finds, each scan resuming after the previous match. */
  function CountOccurrences(t: string, p: string): (n: nat)
    requires |p| > 0
    ensures forall ps :: GreedyScan(t, p, 0, ps) ==> n == |ps|
    ensures n * |p| <= |t|
  {
    MatchesAreGreedy(t, p);
    GreedyScanFits(t, p, 0, Matches(t, p));
    |Matches(t, p)|
  }

  lemma CountPositiveIffContains(t: string, p: string)
    requires |p| > 0
    ensures CountOccurrences(t, p) > 0 <==> Contains(t, p)
  {
    var ps := Matches(t, p);
    MatchesAreGreedy(t, p);
    if |ps| > 0 {
      assert OccursAt(t, p, ps[0]);
    } else {
      assert NoOccurrenceIn(t, p, 0, |t| + 1);
    }
  }

  // ---------------------------------------------------------------------------
  // Runs of characters and `strip`

  /** Length of the longest prefix of `s` whose characters all satisfy `p`. */
  function Span(s: string, p: char -> bool): (n: nat)
    ensures n <= |s|
    ensures forall i :: 0 <= i < n ==> p(s[i])
    ensures n < |s| ==> !p(s[n])
  {
    if |s| == 0 || !p(s[0]) then 0 else 1 + Span(s[1..], p)
  }

  /** Length of the longest suffix of `s` whose characters all satisfy `p`. */
  function SpanBack(s: string, p: char -> bool): (n: nat)
    ensures n <= |s|
    ensures forall i :: |s| - n <= i < |s| ==> p(s[i])
    ensures n < |s| ==> !p(s[|s| - n - 1])
  {
    if |s| == 0 || !p(s[|s| - 1]) then 0 else 1 + SpanBack(s[..|s| - 1], p)
  }

  /** `Span` is the only length with all characters before it satisfying `p` and the
      next one, if any, not. */
  lemma SpanExact(s: string, p: char -> bool, n: nat)
    requires n <= |s|
    requires forall i :: 0 <= i < n ==> p(s[i])
    requires n < |s| ==> !p(s[n])
    ensures Span(s, p) == n
  {
  }

  predicate IsStripped(s: string) {
    |s| == 0 || (!IsSpace(s[0]) && !IsSpace(s[|s| - 1]))
  }

  /** `str.strip()`: the middle slice of `s` left after every leading and trailing
      whitespace character is removed. */
  function Strip(s: string): (r: string)
    ensures IsStripped(r)
    ensures Span(s, IsSpace) + |r| <= |s|
    ensures r == s[Span(s, IsSpace)..Span(s, IsSpace) + |r|]
    ensures forall i :: Span(s, IsSpace) + |r| <= i < |s| ==> IsSpace(s[i])
  {
    var a := Span(s, IsSpace);
    if a == |s| then "" else s[a..|s| - SpanBack(s, IsSpace)]
  }

  lemma StripStripped(s: string)
    requires IsStripped(s)
    ensures Strip(s) == s
  {
    if |s| > 0 {
      assert Span(s, IsSpace) == 0;
      assert SpanBack(s, IsSpace) == 0;
    }
  }

  /** Whitespace in front of an already stripped string is all that `strip` removes. */
  lemma StripLeftPadded(w: string, x: string)
    requires forall i :: 0 <= i < |w| ==> IsSpace(w[i])
    requires IsStripped(x)
    ensures Strip(w + x) == x
  {
    var s := w + x;
    var a := Span(s, IsSpace);
    if |x| == 0 {
      assert s == w;
      assert a == |s|;
    } else {
      assert s[|w|] == x[0];
      assert a == |w|;
      assert s[|s| - 1] == x[|x| - 1];
      assert SpanBack(s, IsSpace) == 0;
      assert s[|w|..] == x;
    }
  }

  // ---------------------------------------------------------------------------
  // `split` and `join`

  /** `sep.join(xs)`. */
  function Join(xs: seq<string>, sep: string): string {
    if |xs| == 0 then ""
    else if |xs| == 1 then xs[0]
    else xs[0] + sep + Join(xs[1..], sep)
  }

  /** `s.split(c)` for a one-character separator: the pieces between separators,
      empty pieces included; joining them back with the separator gives `s`. */
  function Split(s: string, c: char): (parts: seq<string>)
    ensures |parts| >= 1
    ensures forall k :: 0 <= k < |parts| ==> c !in parts[k]
    ensures Join(parts, [c]) == s
    decreases |s|
  {
    if |s| == 0 then [""]
    else
      var rest := Split(s[1..], c);
      if s[0] == c then
        assert ([""] + rest)[1..] == rest;
        assert s == [c] + s[1..];
        [""] + rest
      else
        var parts := [[s[0]] + rest[0]] + rest[1..];
        assert parts[1..] == rest[1..];
        assert Join(parts, [c]) == [s[0]] + Join(rest, [c]) by {
          if |rest| > 1 {
            assert Join(rest, [c]) == rest[0] + [c] + Join(rest[1..], [c]);
          }
        }
        assert s == [s[0]] + s[1..];
        parts
  }

  lemma {:induction false} SplitWithoutSeparator(a: string, c: char)
    requires c !in a
    ensures Split(a, c) == [a]
    decreases |a|
  {
    if |a| > 0 {
      SplitWithoutSeparator(a[1..], c);
      assert [a[0]] + a[1..] == a;
    }
  }

  /** A separator-free piece followed by the separator is split off as one part. */
  lemma {:induction false} SplitAfterPiece(a: string, c: char, rest: string)
    requires c !in a
    ensures Split(a + [c] + rest, c) == [a] + Split(rest, c)
    decreases |a|
  {
    var s := a + [c] + rest;
    if |a| == 0 {
      assert s[1..] == rest;
    } else {
      assert s[1..] == a[1..] + [c] + rest;
      SplitAfterPiece(a[1..], c, rest);
      assert [a[0]] + a[1..] == a;
    }
  }

  /** A separator-free prefix is glued onto the first part. */
  lemma {:induction false} SplitPrefixed(pad: string, c: char, t: string)
    requires c !in pad
    ensures Split(pad + t, c) == [pad + Split(t, c)[0]] + Split(t, c)[1..]
    decreases |pad|
  {
    if |pad| > 0 {
      var s := pad + t;
      assert s[1..] == pad[1..] + t;
      SplitPrefixed(pad[1..], c, t);
      assert [pad[0]] + (pad[1..] + Split(t, c)[0]) == pad + Split(t, c)[0];
    } else {
      var parts := Split(t, c);
      assert pad + t == t;
      assert parts == [parts[0]] + parts[1..];
      assert pad + parts[0] == parts[0];
    }
  }

  /** Every element of `ys` with `pad` in front of it. */
  function Prefixed(pad: string, ys: seq<string>): (r: seq<string>)
    ensures |r| == |ys|
    ensures forall i :: 0 <= i < |ys| ==> r[i] == pad + ys[i]
  {
    seq(|ys|, i requires 0 <= i < |ys| => pad + ys[i])
  }

  /** Splitting `xs` joined with `c + pad` on `c` gives back the first element and
      every later element with `pad` in front of it. */
  lemma {:induction false} SplitJoinPadded(xs: seq<string>, c: char, pad: string)
    requires |xs| >= 1
    requires c !in pad
    requires forall k :: 0 <= k < |xs| ==> c !in xs[k]
    ensures Split(Join(xs, [c] + pad), c) == [xs[0]] + Prefixed(pad, xs[1..])
    decreases |xs|
  {
    var sep := [c] + pad;
    if |xs| == 1 {
      SplitWithoutSeparator(xs[0], c);
    } else {
      var tail := Join(xs[1..], sep);
      assert Join(xs, sep) == xs[0] + [c] + (pad + tail);
      SplitAfterPiece(xs[0], c, pad + tail);
      SplitJoinPadded(xs[1..], c, pad);
      SplitPrefixed(pad, c, tail);
      assert Split(pad + tail, c) == Prefixed(pad, xs[1..]);
    }
  }

  // ---------------------------------------------------------------------------
  // Integers: `str(n)` and `int(s)`

  function DigitValue(c: char): int
    requires IsDigit(c)
  {
    c as int - '0' as int
  }

  predicate AllDigits(s: string) {
    forall i :: 0 <= i < |s| ==> IsDigit(s[i])
  }

  /** The number a string of decimal digits denotes. */
  function DecimalValue(s: string): nat
    requires AllDigits(s)
  {
    if |s| == 0 then 0 else DecimalValue(s[..|s| - 1]) * 10 + DigitValue(s[|s| - 1])
  }

  /** `str(n)` for `n >= 0`: decimal digits without a leading zero. */
  function NatToDecimal(n: nat): (s: string)
    ensures |s| >= 1 && AllDigits(s)
    ensures DecimalValue(s) == n
    ensures |s| > 1 ==> s[0] != '0'
  {
    var d := ['0' + (n % 10) as char];
    if n < 10 then d
    else
      var s := NatToDecimal(n / 10) + d;
      assert s[..|s| - 1] == NatToDecimal(n / 10);
      s
  }

  /** `str(n)` for any integer. */
  function IntToDecimal(n: int): (s: string)
    ensures |s| >= 1
    ensures n >= 0 ==> AllDigits(s) && DecimalValue(s) == n
    ensures n < 0 ==> s[0] == '-' && AllDigits(s[1..]) && DecimalValue(s[1..]) == -n
  {
    if n < 0 then "-" + NatToDecimal(-n) else NatToDecimal(n)
  }

  /** Digits with single underscores between them, as `int()` accepts them. */
  predicate IsDigitGroup(s: string) {
    && |s| >= 1
    && IsDigit(s[0]) && IsDigit(s[|s| - 1])
    && (forall i :: 0 <= i < |s| ==> IsDigit(s[i]) || s[i] == '_')
    && (forall i :: 0 <= i < |s| - 1 ==> s[i] == '_' ==> s[i + 1] != '_')
  }

  function DropUnderscores(s: string): (r: string)
    ensures |r| <= |s|
    ensures (forall i :: 0 <= i < |s| ==> IsDigit(s[i]) || s[i] == '_') ==> AllDigits(r)
  {
    if |s| == 0 then ""
    else (if s[0] == '_' then "" else [s[0]]) + DropUnderscores(s[1..])
  }

  /** The whitespace `int()` skips around a number. CPython's parser skips only the
      ASCII spaces " \t\n\v\f\r", after turning every non-ASCII `isspace` character
      into a space; the ASCII separators U+001C-U+001F are kept, and make it raise. */
  predicate IsIntSpace(c: char) {
    IsSpace(c) && !('\U{1C}' <= c <= '\U{1F}')
  }

  /** `s` without its leading and trailing `IsIntSpace` characters: what `int()`
      reads as the number. */
  function IntTrim(s: string): (r: string)
    ensures |r| > 0 ==> !IsIntSpace(r[0]) && !IsIntSpace(r[|r| - 1])
    ensures Span(s, IsIntSpace) + |r| <= |s|
    ensures r == s[Span(s, IsIntSpace)..Span(s, IsIntSpace) + |r|]
    ensures forall i :: Span(s, IsIntSpace) + |r| <= i < |s| ==> IsIntSpace(s[i])
  {
    var a := Span(s, IsIntSpace);
    if a == |s| then "" else s[a..|s| - SpanBack(s, IsIntSpace)]
  }

  lemma IntTrimOfTrimmed(s: string)
    requires |s| > 0 ==> !IsIntSpace(s[0]) && !IsIntSpace(s[|s| - 1])
    ensures IntTrim(s) == s
  {
    if |s| > 0 {
      assert Span(s, IsIntSpace) == 0;
      assert SpanBack(s, IsIntSpace) == 0;
    }
  }

  /** Python's `int(s)` on a string: surrounding whitespace, an optional sign, and a
      digit group; `None` where Python raises `ValueError`. */
  function ParseInt(s: string): (r: Option<int>)
    ensures IntTrim(s) == "" ==> r.None?
    ensures r.Some? ==> |IntTrim(s)| > 0 && IsDigit(IntTrim(s)[|IntTrim(s)| - 1])
    ensures r.Some? ==> forall i :: 0 <= i < |IntTrim(s)| ==>
      IsDigit(IntTrim(s)[i]) || IntTrim(s)[i] == '_' || (i == 0 && (IntTrim(s)[i] == '-' || IntTrim(s)[i] == '+'))
  {
    var t := IntTrim(s);
    var negative := |t| > 0 && t[0] == '-';
    var body := if |t| > 0 && (t[0] == '-' || t[0] == '+') then t[1..] else t;
    if !IsDigitGroup(body) then None
    else
      var v: int := DecimalValue(DropUnderscores(body));
      Some(if negative then -v else v)
  }

  lemma {:induction false} DropUnderscoresOfDigits(s: string)
    requires AllDigits(s)
    ensures DropUnderscores(s) == s
    decreases |s|
  {
    if |s| > 0 {
      DropUnderscoresOfDigits(s[1..]);
      assert [s[0]] + s[1..] == s;
    }
  }

  /** `int(str(n)) == n`. */
  lemma ParseIntOfDecimal(n: int)
    ensures ParseInt(IntToDecimal(n)) == Some(n)
  {
    if n < 0 {
      ParseIntOfNegative(n);
    } else {
      ParseIntOfNatural(n);
    }
  }

  /** The case `n >= 0`: the text is a plain digit group. */
  lemma ParseIntOfNatural(n: int)
    requires n >= 0
    ensures ParseInt(IntToDecimal(n)) == Some(n)
  {
    var s := IntToDecimal(n);
    IntTrimOfTrimmed(s);
    DropUnderscoresOfDigits(s);
    assert IsDigitGroup(s);
  }

  /** The case `n < 0`: a minus sign followed by a digit group. */
  lemma ParseIntOfNegative(n: int)
    requires n < 0
    ensures ParseInt(IntToDecimal(n)) == Some(n)
  {
    var s := IntToDecimal(n);
    var body := s[1..];
    assert !IsIntSpace(s[|s| - 1]) by {
      assert s[|s| - 1] == body[|body| - 1];
    }
    IntTrimOfTrimmed(s);
    DropUnderscoresOfDigits(body);
    assert IsDigitGroup(body);
  }

  /** Surrounding whitespace is ignored: text that trims to plain digits reads as
      the number those digits denote, so " 2025\n" gives 2025. */
  lemma ParseIntOfDigits(s: string)
    requires |IntTrim(s)| > 0 && AllDigits(IntTrim(s))
    ensures ParseInt(s) == Some(DecimalValue(IntTrim(s)))
  {
    var t := IntTrim(s);
    DropUnderscoresOfDigits(t);
    assert IsDigitGroup(t);
  }

  /** `int()` trims less than `strip`: "\x1c2025" strips to "2025", but `int()`
      rejects it. */
  lemma ParseIntKeepsSeparators()
    ensures Strip("\U{1C}2025") == "2025"
    ensures ParseInt("\U{1C}2025").None?
  {
    StripLeftPadded("\U{1C}", "2025");
    assert "\U{1C}" + "2025" == "\U{1C}2025";
    var s := "\U{1C}2025";
    IntTrimOfTrimmed(s);
  }

}

=== FILE: utils.dfy ===
/** The pure part of `utils.py`: word tokenisation and reading time, keyword density,
    slug truncation, the external-link rule applied after Markdown conversion, the
    JSON-LD record and the field selection that feeds the HTML page template. */
module Utils {
  import opened Wrappers
  import opened Text

  // ---------------------------------------------------------------------------
  // Records shared by both generators

  datatype Author = Author(name: string, title: string)

  /** The front-matter dictionary both generators build. Every key is always set, so
      plain fields stand for them; the three keys that `render_html` and
      `dict.setdefault` treat differently when ABSENT are `Option`s. `keyOrder` is
      the order in which the program inserted the keys, which `yaml.safe_dump` with
      `sort_keys=False` follows. */
  datatype PostMeta = PostMeta(
    title: string,
    author: Author,
    date: string,
    primaryKeyword: string,
    audience: string,
    company: string,
    slug: string,
    readingTimeMin: nat,
    canonicalUrl: Option<string>,
    keywords: seq<string>,
    metaDescription: string,
    ogImage: string,
    ogTitle: Option<string>,
    ogDescription: Option<string>,
    keyOrder: seq<string>)

  /** One related-post entry handed to the page template. */
  datatype LinkSuggestion = LinkSuggestion(title: string, slug: string, url: string)

  /** What the batch generator passes to the link suggester for each post. */
  datatype PostSummary = PostSummary(title: string, slug: string, canonicalUrl: string, content: string)

  /** An element of the parsed HTML document, in document order. */
  datatype Element = Element(name: string, attrs: map<string, string>)

  /** The library calls the model does not look inside: `slugify`, `markdown`,
      BeautifulSoup's parser and serialiser, `yaml.safe_dump`, and the link suggester
      imported by the batch generator. */
  datatype Libraries = Libraries(
    slugify: string -> string,
    markdown: string -> string,
    parseHtml: string -> seq<Element>,
    serializeHtml: seq<Element> -> string,
    dumpYaml: PostMeta -> string,
    suggestLinks: seq<PostSummary> -> seq<seq<LinkSuggestion>>)

  // ---------------------------------------------------------------------------
  // Words and reading time

  predicate AllWordChars(w: string) {
    forall i :: 0 <= i < |w| ==> IsWordChar(w[i])
  }

  /** `re.findall(r"\w+", s)`: the maximal runs of word characters, left to right. */
  function Words(s: string): (ws: seq<string>)
    ensures forall k :: 0 <= k < |ws| ==> |ws[k]| > 0 && AllWordChars(ws[k])
    decreases |s|
  {
    if |s| == 0 then []
    else if !IsWordChar(s[0]) then Words(s[1..])
    else
      var n := Span(s, IsWordChar);
      [s[..n]] + Words(s[n..])
  }

  /** Reference count of words: the positions where a run of word characters begins,
      read by a two-state scanner (`inWord` says whether the previous character was a
      word character). */
  function RunStarts(s: string, inWord: bool): nat
    decreases |s|
  {
    if |s| == 0 then 0
    else (if IsWordChar(s[0]) && !inWord then 1 else 0) + RunStarts(s[1..], IsWordChar(s[0]))
  }

  lemma {:induction false} RunStartsSkipsRun(s: string, n: nat)
    requires 1 <= n <= |s|
    requires forall i :: 0 <= i < n ==> IsWordChar(s[i])
    ensures RunStarts(s[1..], true) == RunStarts(s[n..], true)
    decreases n
  {
    if n > 1 {
      assert s[1..][1..] == s[2..];
      RunStartsSkipsRun(s[1..], n - 1);
      assert s[1..][n - 1..] == s[n..];
    }
  }

  lemma {:induction false} WordsCountRunStarts(s: string)
    ensures |Words(s)| == RunStarts(s, false)
    decreases |s|
  {
    if |s| > 0 {
      if !IsWordChar(s[0]) {
        WordsCountRunStarts(s[1..]);
      } else {
        var n := Span(s, IsWordChar);
        WordsCountRunStarts(s[n..]);
        RunStartsSkipsRun(s, n);
        assert RunStarts(s[n..], true) == RunStarts(s[n..], false);
      }
    }
  }

  /** The word characters of `s`, in order. */
  function WordCharsOf(s: string): string
    decreases |s|
  {
    if |s| == 0 then "" else (if IsWordChar(s[0]) then [s[0]] else "") + WordCharsOf(s[1..])
  }

  function Concat(ws: seq<string>): string {
    if |ws| == 0 then "" else ws[0] + Concat(ws[1..])
  }

  lemma {:induction false} WordCharsOfRun(s: string, n: nat)
    requires n <= |s|
    requires forall i :: 0 <= i < n ==> IsWordChar(s[i])
    ensures WordCharsOf(s) == s[..n] + WordCharsOf(s[n..])
    decreases n
  {
    if n > 0 {
      WordCharsOfRun(s[1..], n - 1);
      assert s[1..][n - 1..] == s[n..];
      assert [s[0]] + s[1..][..n - 1] == s[..n];
    }
  }

  /** Read back to back, the words are exactly the word characters of the text, so no
      word character is lost and none is counted twice. */
  lemma {:induction false} WordsCoverWordChars(s: string)
    ensures Concat(Words(s)) == WordCharsOf(s)
    decreases |s|
  {
    if |s| > 0 {
      if !IsWordChar(s[0]) {
        WordsCoverWordChars(s[1..]);
      } else {
        var n := Span(s, IsWordChar);
        WordsCoverWordChars(s[n..]);
        WordCharsOfRun(s, n);
        assert ([s[..n]] + Words(s[n..]))[1..] == Words(s[n..]);
      }
    }
  }

  lemma {:induction false} LowerKeepsRunStarts(s: string, inWord: bool)
    ensures RunStarts(Lower(s), inWord) == RunStarts(s, inWord)
    decreases |s|
  {
    if |s| > 0 {
      assert Lower(s)[1..] == Lower(s[1..]);
      LowerKeepsRunStarts(s[1..], IsWordChar(s[0]));
    }
  }

  /** Lower-casing a text does not change how many words it has. */
  lemma LowerKeepsWordCount(s: string)
    ensures |Words(Lower(s))| == |Words(s)|
  {
    WordsCountRunStarts(s);
    WordsCountRunStarts(Lower(s));
    LowerKeepsRunStarts(s, false);
  }

  /** A single left-to-right pass that counts words without building them. */
  method CountWords(s: string) returns (n: nat)
    ensures n == |Words(s)|
  {
    n := 0;
    var inWord := false;
    var i := 0;
    while i < |s|
      invariant 0 <= i <= |s|
      invariant inWord == (i > 0 && IsWordChar(s[i - 1]))
      invariant n + RunStarts(s[i..], inWord) == RunStarts(s, false)
    {
      assert s[i..][1..] == s[i + 1..];
      if IsWordChar(s[i]) && !inWord {
        n := n + 1;
      }
      inWord := IsWordChar(s[i]);
      i := i + 1;
    }
    WordsCountRunStarts(s);
  }

  const WORDS_PER_MINUTE: nat := 200

  /** `max(1, ceil(words / 200))`. */
  function MinutesFor(words: nat): nat {
    var c := (words + WORDS_PER_MINUTE - 1) / WORDS_PER_MINUTE;
    if c < 1 then 1 else c
  }

  /** Estimated reading time: the least whole number of minutes, at least one, in which
      the text's words fit at 200 words a minute. */
  function EstReadingTime(text: string): (minutes: nat)
    ensures minutes >= 1
    ensures |Words(text)| <= WORDS_PER_MINUTE * minutes
    ensures minutes == 1 || WORDS_PER_MINUTE * (minutes - 1) < |Words(text)|
  {
    MinutesFor(|Words(text)|)
  }

  /** More words never means less reading time, and up to 200 words is one minute. */
  lemma ReadingTimeMonotone(a: string, b: string)
    requires |Words(a)| <= |Words(b)|
    ensures EstReadingTime(a) <= EstReadingTime(b)
    ensures |Words(b)| <= WORDS_PER_MINUTE ==> EstReadingTime(b) == 1
  {
  }

  // ---------------------------------------------------------------------------
  // Keyword density

  /** The two integers `naive_keyword_density` divides: the density it reports is
      `round(hits / totalWords * 100, 2)`. The hits are the leftmost, non-overlapping
      matches of the lower-cased keyword in the lower-cased text (`GreedyScan`). */
  datatype Density = Density(hits: nat, totalWords: nat)

  function KeywordDensity(text: string, keyword: string): (d: Density)
    ensures d.totalWords >= 1
    ensures keyword == "" ==> d.hits == 0
    ensures keyword != "" ==> d.totalWords == if |Words(text)| == 0 then 1 else |Words(text)|
    ensures keyword != "" ==> forall ps :: GreedyScan(Lower(text), Lower(keyword), 0, ps) ==> d.hits == |ps|
    ensures keyword != "" ==> (d.hits > 0 <==> Contains(Lower(text), Lower(keyword)))
    ensures d.hits * |keyword| <= |text|
  {
    if keyword == "" then Density(0, 1)
    else
      var low := Lower(text);
      var words := |Words(low)|;
      LowerKeepsWordCount(text);
      CountPositiveIffContains(low, Lower(keyword));
      Density(CountOccurrences(low, Lower(keyword)), if words == 0 then 1 else words)
  }

  /** Neither the text's nor the keyword's letter case changes the density. */
  lemma DensityIgnoresCase(text: string, keyword: string)
    ensures KeywordDensity(Lower(text), keyword) == KeywordDensity(text, keyword)
    ensures KeywordDensity(text, Lower(keyword)) == KeywordDensity(text, keyword)
  {
    LowerIdempotent(text);
    LowerIdempotent(keyword);
  }

  /** Hits are substring matches, not whole words: "Plan" is found inside "planning". */
  lemma DensityCountsSubstrings()
    ensures KeywordDensity("planning", "Plan") == Density(1, 1)
  {
    LowerOfLiterals();
    CountPlanInPlanning();
    OneWordInPlanning();
  }

  lemma LowerOfLiterals()
    ensures Lower("planning") == "planning"
    ensures Lower("Plan") == "plan"
  {
  }

  lemma CountPlanInPlanning()
    ensures CountOccurrences("planning", "plan") == 1
  {
    var t := "planning";
    assert OccursAt(t, "plan", 0) by {
      assert t[0..4] == "plan";
    }
    assert NoOccurrenceIn(t, "plan", 4, |t| + 1) by {
      assert t[4] == 'n';
    }
    assert GreedyScan(t, "plan", 4, []);
    assert [0][1..] == [];
    assert GreedyScan(t, "plan", 0, [0]);
  }

  lemma OneWordInPlanning()
    ensures |Words("planning")| == 1
  {
    var t := "planning";
    assert Span(t, IsWordChar) == 8 by {
      assert forall i :: 0 <= i < 8 ==> IsWordChar(t[i]);
      SpanExact(t, IsWordChar, 8);
    }
    assert t[8..] == "";
  }

  // ---------------------------------------------------------------------------
  // Slug

  const SLUG_MAX: nat := 120

  /** `slugify(title)[:120]`. */
  function SeoSlug(title: string, slugify: string -> string): (slug: string)
    ensures |slug| <= SLUG_MAX
    ensures StartsWith(slugify(title), slug)
    ensures |slugify(title)| <= SLUG_MAX ==> slug == slugify(title)
    ensures |slug| == if |slugify(title)| < SLUG_MAX then |slugify(title)| else SLUG_MAX
  {
    Take(slugify(title), SLUG_MAX)
  }

  // ---------------------------------------------------------------------------
  // External links

  /** An anchor with an `href` that starts with "http". */
  predicate IsExternalAnchor(e: Element) {
    e.name == "a" && "href" in e.attrs && StartsWith(e.attrs["href"], "http")
  }

  function MarkExternal(e: Element): Element {
    if IsExternalAnchor(e) then
      e.(attrs := e.attrs["target" := "_blank"]["rel" := "noopener noreferrer"])
    else e
  }

  /** The pass `md_to_html` makes over every anchor of the parsed document: external
      anchors open in a new context without opener or referrer; every other element,
      including relative links, is left exactly as it was. */
  function MarkExternalLinks(doc: seq<Element>): (r: seq<Element>)
    ensures |r| == |doc|
    ensures forall i :: 0 <= i < |doc| && !IsExternalAnchor(doc[i]) ==> r[i] == doc[i]
    ensures forall i :: 0 <= i < |doc| && IsExternalAnchor(doc[i]) ==>
      && r[i].name == doc[i].name
      && r[i].attrs.Keys == doc[i].attrs.Keys + {"target", "rel"}
      && r[i].attrs["target"] == "_blank"
      && r[i].attrs["rel"] == "noopener noreferrer"
      && r[i].attrs["href"] == doc[i].attrs["href"]
      && forall k :: k in doc[i].attrs && k != "target" && k != "rel" ==> r[i].attrs[k] == doc[i].attrs[k]
  {
    seq(|doc|, i requires 0 <= i < |doc| => MarkExternal(doc[i]))
  }

  /** Marking is idempotent: a second pass changes nothing. */
  lemma MarkExternalLinksIdempotent(doc: seq<Element>)
    ensures MarkExternalLinks(MarkExternalLinks(doc)) == MarkExternalLinks(doc)
  {
    var once := MarkExternalLinks(doc);
    var twice := MarkExternalLinks(once);
    forall i | 0 <= i < |doc|
      ensures twice[i] == once[i]
    {
      if IsExternalAnchor(doc[i]) {
        assert IsExternalAnchor(once[i]);
        assert twice[i].attrs == once[i].attrs;
      }
    }
  }

  /** `md_to_html`: Markdown conversion and parsing are library calls; the link pass
      in between is the part modelled. */
  function MdToHtml(md: string, libs: Libraries): string {
    libs.serializeHtml(MarkExternalLinks(libs.parseHtml(libs.markdown(md))))
  }

  // ---------------------------------------------------------------------------
  // Front matter, JSON-LD and the page template's inputs

  const PUBLISHER_NAME := "WIF Marketing"
  const PUBLISHER_URL := "https://wifmarketing.co"

  /** `front_matter`: the YAML dump of the metadata between two `---` lines. */
  function FrontMatter(meta: PostMeta, libs: Libraries): (fm: string)
    ensures StartsWith(fm, "---\n")
    ensures |fm| >= 8 && fm[|fm| - 4..] == "---\n"
  {
    "---\n" + libs.dumpYaml(meta) + "---\n"
  }

  /** The schema.org `Article` that `build_jsonld` serialises. */
  datatype Article = Article(
    headline: string,
    description: string,
    authorName: string,
    publisherName: string,
    publisherUrl: string,
    datePublished: string,
    mainEntityOfPage: string)

  function BuildJsonLd(meta: PostMeta, summary: string): (a: Article)
    ensures a.publisherName == PUBLISHER_NAME && a.publisherUrl == PUBLISHER_URL
    ensures meta.canonicalUrl.Some? ==> a.mainEntityOfPage == meta.canonicalUrl.value
    ensures meta.canonicalUrl.None? ==> a.mainEntityOfPage == PUBLISHER_URL
    ensures a.headline == meta.title && a.description == summary
    ensures a.authorName == meta.author.name && a.datePublished == meta.date
  {
    Article(meta.title, summary, meta.author.name, PUBLISHER_NAME, PUBLISHER_URL, meta.date,
            meta.canonicalUrl.GetOr(PUBLISHER_URL))
  }

  /** The variables `render_html` passes to the page template. */
  datatype PageContext = PageContext(
    title: string,
    metaDescription: string,
    authorName: string,
    keywords: string,
    canonicalUrl: string,
    ogTitle: string,
    ogDescription: string,
    siteName: string,
    ogImage: string,
    jsonLd: Article,
    date: string,
    readingTime: nat,
    content: string,
    internalLinks: seq<LinkSuggestion>)

  /** `render_html` up to the template call. The Open Graph title and description fall
      back to the title and meta description only when their key is absent; a key
      present with an empty value is passed through empty. */
  function RenderHtml(meta: PostMeta, mdBody: string, links: seq<LinkSuggestion>, libs: Libraries): (ctx: PageContext)
    ensures ctx.keywords == Join(meta.keywords, ", ")
    ensures meta.ogTitle.Some? ==> ctx.ogTitle == meta.ogTitle.value
    ensures meta.ogTitle.None? ==> ctx.ogTitle == meta.title
    ensures meta.ogDescription.Some? ==> ctx.ogDescription == meta.ogDescription.value
    ensures meta.ogDescription.None? ==> ctx.ogDescription == meta.metaDescription
    ensures ctx.canonicalUrl == meta.canonicalUrl.GetOr("")
    ensures ctx.jsonLd.description == ctx.metaDescription == meta.metaDescription
    ensures ctx.jsonLd.mainEntityOfPage == meta.canonicalUrl.GetOr(PUBLISHER_URL)
    ensures ctx.content == MdToHtml(mdBody, libs)
    ensures ctx.internalLinks == links
    ensures ctx.readingTime == meta.readingTimeMin && ctx.siteName == meta.company
    ensures ctx.title == meta.title && ctx.authorName == meta.author.name
    ensures ctx.ogImage == meta.ogImage && ctx.date == meta.date
    ensures ctx.jsonLd.authorName == meta.author.name && ctx.jsonLd.datePublished == meta.date
  {
    PageContext(
      title := meta.title,
      metaDescription := meta.metaDescription,
      authorName := meta.author.name,
      keywords := Join(meta.keywords, ", "),
      canonicalUrl := meta.canonicalUrl.GetOr(""),
      ogTitle := meta.ogTitle.GetOr(meta.title),
      ogDescription := meta.ogDescription.GetOr(meta.metaDescription),
      siteName := meta.company,
      ogImage := meta.ogImage,
      jsonLd := BuildJsonLd(meta, meta.metaDescription),
      date := meta.date,
      readingTime := meta.readingTimeMin,
      content := MdToHtml(mdBody, libs),
      internalLinks := links)
  }
}

=== FILE: wrappers.dfy ===
/** Optional values and success/failure results, standing in for Python's `None`
    and for the exceptions that abort a generation run. */
module Wrappers {

  datatype Option<+T> = None | Some(value: T) {

    /** The wrapped value, or `default` when there is none (Python's `d.get(k, default)`). */
    function GetOr(default: T): T {
      match this
      case Some(v) => v
      case None => default
    }
  }

  datatype Result<+R, +E> = Success(value: R) | Failure(error: E)
}
